=== FILE: README.md ===
# Veeam_GZiper in Dafny

Veeam_GZiper compresses one file into a `.gzz` archive and decompresses it
again, in parallel. The steps are:

- A reader thread cuts the source into numbered blocks. Compress-mode blocks
  are 1 MiB; in decompress mode each block's size comes from its 3-byte
  length prefix.
- The reader queues the blocks for a pool of workers. Each worker compresses
  or decompresses a block with GZip.
- A writer thread collects the results in a reorder buffer and writes them
  strictly in block-number order.
- A manager thread grows or shrinks the pool from the queue depth and the
  CPU load.
- Before any of this starts, `ValidateOperation` checks the file names, the
  free space and the archive's format. It also computes the block count that
  goes into the archive header.

The archive layout is:

- a 4-byte all-zero key;
- a 2-byte little-endian block count;
- then, per block, a 3-byte little-endian length followed by the GZip member.

The model has a module for each source class it covers (`Input`,
`Compresser`, `Output`, `ThreadManager`, `GZiper`; `Blocks` is the
`BlockOfFile` struct). Five more modules hold what those classes share or
compose: `Wrappers`, `Bytes`, `Format`, `WorkQueue` and `Pipeline`.

- `Wrappers` is the optional value that stands for a nullable reference.
- `Bytes` is the machine integers and little-endian byte strings.

- `Blocks` is `BlockOfFile`: an immutable `(number, bytes)` value.
- `Format` is the archive layout: the writers in `Output` and the readers
  in `Input`, with their round trips.
- `Input` is the reader: the chunker, the read-loop gate and the `Read`
  loop.
- `WorkQueue` is the FIFO and its taken-blocks counter.
- `Compresser` is one worker as a step function. The GZip codec is a
  parameter, and its `None` result stands for a corrupt-data fault.
- `Output` is the reorder buffer and the in-order writer.
- `ThreadManager` covers the pool-sizing rule, the Archivers stack and
  `WaitThreads`.
- `GZiper` covers `ValidateOperation` and the block count. It has an
  as-written version and a corrected one.
- `Pipeline` composes all the threads into one state machine. A run is any
  interleaving of atomic steps by the reader, the manager, each worker and
  the writer. One invariant holds after every step of every interleaving. It
  says:
  - each block is read once;
  - each block is taken from the queue once;
  - each block is held by one worker at most;
  - each block is buffered once;
  - the destination always holds the header, then the transformed blocks in
    number order.

  From that invariant follow:
  - append-only, in-order output;
  - the pool bounds;
  - the end-to-end round trip: decompressing what compression wrote gives the
    input back.

Machine integers are modelled explicitly:

- `byte` and `ushort` are subset types of `int`.
- The `ushort` counters' `++` wraps modulo 65536 (`Bytes.Inc16`).
- `BitConverter` is little-endian byte strings (`Bytes.ToLE`, `Bytes.FromLE`).
- A `Stream.Read` into a zeroed buffer leaves zeros past the end of the
  stream (`Format.ReadPadded`).

`GZiper.Cancel` calls `Environment.Exit(0)`, which ends every thread at
once. The model has a
terminal `cancelled` flag and does not model the exit status.

## Model

| member | source | states |
|---|---|---|
| Bytes.Inc16 | Veeam_GZiper/Input.cs:110 | `OrderId++` on a `ushort` adds one below 65535 and wraps 65535 to 0 |
| Bytes.FromToLE | Veeam_GZiper/Output.cs:78-81 | keeping the first `width` bytes of a little-endian encoding keeps the value modulo 256^width, so a value that does not fit loses its high part |
| Bytes.ToFromLE | Veeam_GZiper/Input.cs:118-123 | the other direction of `Bytes.FromToLE`: decoding little-endian bytes and encoding the value back at the same width gives the same bytes, so no byte string of a fixed width is read two ways |
| Format.ReadPadded | Veeam_GZiper/Input.cs:118-123 | a read into a zeroed buffer holds the stream's bytes where they exist and 0 past the end of the stream |
| Format.WriteKey | Veeam_GZiper/Output.cs:24-28 | the key is four zero bytes |
| Format.WriteBlocksCount | Veeam_GZiper/Output.cs:30-34 | the count takes two bytes whose little-endian value is the count |
| Format.Header | Veeam_GZiper/GZiper.cs:30-31 | the header `Compress` writes is six bytes: four zero key bytes, then the count as a little-endian `ushort` |
| Format.ReadAndCheckKey | Veeam_GZiper/Input.cs:44-49 | the key check passes exactly when every byte among the first four that exist is zero |
| Format.ReadBlocksCount | Veeam_GZiper/Input.cs:56-62 | the count is byte 4 plus 256 times byte 5 |
| Format.WriteBlockSizeAsWritten | Veeam_GZiper/Output.cs:78-81 | the length prefix is three bytes whose value is the length modulo 2^24 |
| Format.WriteBlockSize | Veeam_GZiper/Output.cs:78-81 | corrected prefix: present exactly when the length is below 2^24, and then its value is the length |
| Format.ReadBlockSize | Veeam_GZiper/Input.cs:118-123 | the size read is below 2^24 and is the little-endian value of the bytes actually read, so a stream that ends inside the prefix gives the zero-padded value; the position advances past at most three bytes |
| Format.Frame | Veeam_GZiper/Output.cs:68-76 | a block in compress mode is a 3-byte prefix holding its length modulo 2^24 followed by its bytes; in decompress mode it is only its bytes |
| Format.HeaderRoundTrip | Veeam_GZiper/Output.cs:24-34 | whatever follows the header, the written key passes the key check and the written count reads back unchanged |
| Format.SizeRoundTrip | Veeam_GZiper/Output.cs:78-81 | a length below 2^24 written as a prefix anywhere in a stream is read back, and the reader lands just after the prefix |
| Format.TruncatedSizeMisread | Veeam_GZiper/Output.cs:78-81 | the written prefix of a 2^24-byte block is [0,0,0] and reads back as 0, while the corrected prefix refuses it |
| Input.ReadBlock | Veeam_GZiper/Input.cs:103-111 | the block holds min(blockSize, bytes left) bytes, exactly those at the position, and the position moves past them |
| Input.IsCompress | Veeam_GZiper/Input.cs:138-141 | (definition) a reader compresses exactly when its block size is not 0; used by every compress/decompress split of the reader |
| Input.MayRead | Veeam_GZiper/Input.cs:79-83 | (definition) the read loop goes on only when the RAM reading is above 512 and the queue holds at most 100 blocks; `Input.ReadStep` states that a closed gate changes nothing |
| Input.NextBlock | Veeam_GZiper/Input.cs:85-86 | each turn strictly advances the position and stays within the stream; in compress mode the block is the next configured-size run of bytes (or what is left), in decompress mode the block is the run of bytes after the prefix, as long as the prefix says or what is left |
| Input.ReadFrom | Veeam_GZiper/Input.cs:77-87 | the read loop yields no block exactly when the stream is exhausted at its starting position |
| Input.ReadFromNumbered | Veeam_GZiper/Input.cs:110 | block k of the loop carries the starting counter plus k, modulo 65536 |
| Input.ReadStep | Veeam_GZiper/Input.cs:77-87 | with the stream exhausted or the gate closed nothing happens; otherwise the next block of the loop is produced, the counter is incremented and the rest of the loop is unchanged |
| Input.Read | Veeam_GZiper/Input.cs:68-96 | a re-entrant call returns at once; otherwise the loop yields every block from the position to the end, clears the flag and advances the counter by the block count mod 65536 |
| Input.ChunksPartition | Veeam_GZiper/Input.cs:103-111 | in compress mode the blocks laid end to end are exactly the rest of the stream; all but the last are full and the last has 1 to blockSize bytes |
| Input.ChunkCount | Veeam_GZiper/Input.cs:77-87 | in compress mode the reader makes ceil(remaining / blockSize) blocks |
| Input.FramesParse | Veeam_GZiper/Input.cs:77-87 | decompress-mode reading of framed blocks with lengths below 2^24 gives back exactly those blocks' bytes |
| Input.UnframedIsConcat | Veeam_GZiper/Output.cs:68-76 | the decompress writer's output is the blocks' bytes concatenated |
| WorkQueue.Reset | Veeam_GZiper/ThreadManager.cs:27 | `Start` zeroes the taken-blocks counter and keeps the queued blocks |
| WorkQueue.Enqueue | Veeam_GZiper/ThreadManager.cs:96-102 | the block goes to the tail and nothing else changes |
| WorkQueue.Dequeue | Veeam_GZiper/ThreadManager.cs:104-115 | an empty queue yields nothing and is unchanged; otherwise the head is returned and the counter is incremented |
| WorkQueue.FifoOrder | Veeam_GZiper/ThreadManager.cs:96-115 | dequeuing everything after enqueuing a list returns the earlier contents followed by the list in order, and empties the queue |
| Compresser.NewWorker | Veeam_GZiper/Compresser.cs:14-18 | a new worker is neither interrupted nor done and holds no block |
| Compresser.Interrupt | Veeam_GZiper/Compresser.cs:95-98 | interrupting sets only the flag; the held block is kept |
| Compresser.Transform | Veeam_GZiper/Compresser.cs:61-90 | the result keeps the block's number and holds the codec's output; it fails exactly when the codec fails |
| Compresser.LoopContinues | Veeam_GZiper/Compresser.cs:28 | (definition) a worker's loop goes on while it is not interrupted and the taken-blocks counter differs from the block count; `Compresser.Step` states that an idle worker for which it fails sets Done |
| Compresser.Step | Veeam_GZiper/Compresser.cs:24-55 | a done worker does nothing; an idle worker whose loop ends sets Done; an empty queue changes nothing; otherwise it takes the head; a held block is deposited once under its own number, or a codec fault sets Done and cancels |
| Output.AddBlock | Veeam_GZiper/Output.cs:83-89 | the block is appended and earlier entries are untouched |
| Output.FindBlock | Veeam_GZiper/Output.cs:95-101 | the index found holds the number and no earlier index does; with no index, no entry holds it |
| Output.GetBlock | Veeam_GZiper/Output.cs:91-105 | nothing exactly when no entry has the number; otherwise the first such entry is removed and returned, and the rest keep their order |
| Output.WriteBlockAsWritten | Veeam_GZiper/Output.cs:68-76 | the destination grows by the block's frame and the counter is incremented |
| Output.WriteBlock | Veeam_GZiper/Output.cs:68-81 | corrected write: it refuses exactly a compress-mode block of 2^24 bytes or more; otherwise the destination grows by the valid prefix and the bytes |
| Output.WriterStep | Veeam_GZiper/Output.cs:46-56 | the writer changes something exactly when it is below the block count and block OrderId is buffered; it then takes that block out of the buffer and writes it as `Output.WriteBlockAsWritten` does, whatever its length, and otherwise nothing changes |
| Output.Drain | Veeam_GZiper/Output.cs:46-56 | the loop runs until the count is reached or the next block is missing; the blocks it wrote all came out of the buffer (buffer before = buffer after plus written, as multisets), carry the numbers OrderId, OrderId + 1, … with `ushort` wrap-around, and the destination grew by exactly their frames in that order; starting in that state it changes nothing |
| Output.Write | Veeam_GZiper/Output.cs:36-66 | a re-entrant call writes nothing; otherwise the loop runs until the count is reached, and then the flag is cleared, or until it must sleep for a missing block, and then the flag stays set; the blocks written came out of the buffer, carry the numbers OrderId, OrderId + 1, … with `ushort` wrap-around, the counter moved by exactly their number, and the destination grew by exactly their frames in that order |
| Output.WritesExpected | Veeam_GZiper/Output.cs:46-56 | when the buffer holds the remaining numbered blocks, one pass writes the next one's frame, increments the counter and leaves the remaining blocks |
| Output.DrainInOrder | Veeam_GZiper/Output.cs:46-56 | whatever order the remaining blocks were buffered in, the loop writes them framed in ascending number order, empties the buffer and reaches the count |
| Output.NoSkipAhead | Veeam_GZiper/Output.cs:48-53 | without the next block the writer writes nothing and moves no counter, whatever else is buffered |
| ThreadManager.Resize | Veeam_GZiper/ThreadManager.cs:31-40 | the pool grows by one exactly when the backlog exceeds 10 per worker and both the processor count and the CPU reading allow it; otherwise it shrinks by one if at least two workers are live |
| ThreadManager.ResizeStaysInBounds | Veeam_GZiper/ThreadManager.cs:31-40 | whatever the load, a pool of 1 to the processor count stays within those bounds |
| ThreadManager.AddArchiver | Veeam_GZiper/ThreadManager.cs:72-84 | a fresh worker is pushed and existing workers are untouched |
| ThreadManager.RemoveArchiver | Veeam_GZiper/ThreadManager.cs:86-94 | with fewer than two workers nothing changes; otherwise the top is popped and only its interrupt flag is set |
| ThreadManager.Start | Veeam_GZiper/ThreadManager.cs:26-28 | the counter is zeroed and the pool starts with exactly one fresh worker |
| ThreadManager.WaitStep | Veeam_GZiper/ThreadManager.cs:55-64 | an empty stack ends the wait; the top is popped only once it is Done |
| ThreadManager.Tick | Veeam_GZiper/ThreadManager.cs:29-44 | at the block count the manager starts waiting; otherwise it resizes by the rule, keeping the processor count: growing pushes exactly one fresh worker onto the unchanged stack, shrinking is `RemoveArchiver` (pop the top and interrupt only it); it never touches a held block |
| ThreadManager.StartEstablishes | Veeam_GZiper/ThreadManager.cs:26-28 | on a host with at least one processor the pool starts distinct, uninterrupted and within bounds |
| ThreadManager.TickKeepsInv | Veeam_GZiper/ThreadManager.cs:29-44 | every tick keeps the stack distinct and uninterrupted, between 1 and the processor count while scaling, and empty once finished |
| GZiper.ExtensionOf | Veeam_GZiper/GZiper.cs:128 | the extension is empty or a '.'-led suffix of the path that holds no further '.' or directory separator; when scanning back meets a '.' before any separator and that '.' is not the last character, the extension is the path from that '.' on |
| GZiper.ArchiveExtensionIsSuffix | Veeam_GZiper/GZiper.cs:128-136 | a path's extension is ".gzz" exactly when the path ends in ".gzz" |
| GZiper.BlocksCountAsWritten | Veeam_GZiper/GZiper.cs:144-147 | up to 65535 MiB the count is the least number of 1 MiB blocks covering the input; above that the count's blocks always fall short of the input |
| GZiper.CountAsWrittenIsReaderCountMod | Veeam_GZiper/GZiper.cs:146 | for every input, the count as written is the number of blocks the reader makes, modulo 65536 |
| GZiper.CountsAgreeBelowCeiling | Veeam_GZiper/GZiper.cs:146 | wherever the corrected check lets an input through, the corrected count equals the count as written |
| GZiper.ValidateAsWritten | Veeam_GZiper/GZiper.cs:120-180 | valid exactly when all written checks pass; a missing input, an archive to compress or a non-archive to decompress is reported first |
| GZiper.Validate | Veeam_GZiper/GZiper.cs:120-180 | corrected check: valid exactly when the written checks pass with a ceiling of 65535 blocks and a 6-byte minimum archive; TooManyBlocks only for such inputs |
| GZiper.BlocksCount | Veeam_GZiper/GZiper.cs:144-147 | the corrected count is the least number of 1 MiB blocks covering the input |
| GZiper.ValidCountMatchesReader | Veeam_GZiper/GZiper.cs:144-147 | after the corrected check, the header's count equals the number of blocks the reader makes |
| GZiper.CountWrapsAsWritten | Veeam_GZiper/GZiper.cs:146 | an input of 65536 MiB gets a written count of 0 but is cut into 65536 blocks; the corrected check refuses it |
| GZiper.EmptyArchiveRejectedAsWritten | Veeam_GZiper/GZiper.cs:171 | the 6-byte archive of an empty input fails the written format check and passes the corrected one |
| GZiper.ArchivesPassFormatCheck | Veeam_GZiper/GZiper.cs:169-175 | every archive that starts with a written header passes the corrected format check |
| Pipeline.Init | Veeam_GZiper/GZiper.cs:28-40 | the destination starts with the header in compress mode and empty in decompress mode, and the run is not cancelled |
| Pipeline.Step | Veeam_GZiper/GZiper.cs:32-40 | one atomic step of one of the threads `Compress` starts: a cancelled run does not move; the reader touches only its own state and the queue, the manager only the pool, a worker never the reader or writer, the writer only itself and the buffer; only a worker's codec fault cancels |
| Pipeline.InitEstablishesInv | Veeam_GZiper/GZiper.cs:28-40 | the state when the threads start satisfies the invariant |
| Pipeline.ReadKeepsInv | Veeam_GZiper/Input.cs:77-87 | a reader step keeps the invariant: the block read is the next one of the run, and it joins the queue's tail |
| Pipeline.ManageKeepsInv | Veeam_GZiper/ThreadManager.cs:29-44 | a manager tick keeps the invariant |
| Pipeline.WorkKeepsInv | Veeam_GZiper/Compresser.cs:28-54 | a worker step keeps the invariant; a taken block is held once and a deposited one is the codec's output for that block |
| Pipeline.TakeKeepsInv | Veeam_GZiper/Compresser.cs:30-35 | a worker that takes the head of the queue keeps the invariant: the block it now holds is the next one taken, held by it alone |
| Pipeline.DepositKeepsInv | Veeam_GZiper/Compresser.cs:37-44 | a worker that deposits the transformation of its block keeps the invariant: the block moves from held to buffered |
| Pipeline.FinishKeepsInv | Veeam_GZiper/Compresser.cs:47-54 | a worker that sets Done, because its loop ended or its codec failed, keeps the invariant |
| Pipeline.WriteKeepsInv | Veeam_GZiper/Output.cs:46-56 | a writer step keeps the invariant: what it writes is the next block's transformation |
| Pipeline.StepKeepsInv | Veeam_GZiper/GZiper.cs:32-40 | a step of any of the threads keeps the invariant |
| Pipeline.RunKeepsInv | Veeam_GZiper/GZiper.cs:32-50 | the invariant holds after any interleaving of the threads' steps |
| Pipeline.CompletedRunWritesAll | Veeam_GZiper/Output.cs:46 | once the writer's counter reaches the block count, every block succeeded and the destination is the prefix followed by every transformed block in order |
| Pipeline.WrittenIsPrefix | Veeam_GZiper/Output.cs:46-56 | at every point the destination is a prefix of the complete destination: nothing is written out of order, twice or in part |
| Pipeline.HeaderFirst | Veeam_GZiper/GZiper.cs:30-31 | when compressing, the destination starts with the header carrying the block count |
| Pipeline.CancelledIsFinal | Veeam_GZiper/GZiper.cs:185-189 | after a cancellation no step changes anything |
| Pipeline.StepOnlyAdvances | Veeam_GZiper/Output.cs:68-76 | no step shrinks the destination or decreases the reader's, queue's or writer's counter; none of them wraps |
| Pipeline.NoBlockHeldTwice | Veeam_GZiper/ThreadManager.cs:104-115 | two workers never hold the same block at once |
| Pipeline.EmptyInputArchive | Veeam_GZiper/GZiper.cs:30-31 | compressing an empty input writes exactly the 6-byte header with count 0 |
| Pipeline.ArchiveRoundTrip | Veeam_GZiper/GZiper.cs:23-91 | with a codec pair where decompression undoes compression on blocks of up to 1 MiB, decompressing the archive that compression writes gives back the input |
| Pipeline.PipelineRoundTrip | Veeam_GZiper/GZiper.cs:23-91 | any finished interleaving of the compress run, followed by any finished interleaving of the decompress run over its archive, gives back the input |

## Left out

- Threads, `Thread.Sleep` and `lock` are not modelled. Each thread is a
  sequence of atomic steps, and a run is any interleaving of them. A sleep is
  a step that changes nothing. Each locked region is one step.
- `GZipStream` is not modelled. The codec is a parameter of type
  `seq<byte> -> Option<seq<byte>>`. The round trip assumes decompression
  undoes compression and that compressed blocks stay below 2^24 bytes.
- `Monitoring.Ram` and `Monitoring.Cpu` are readings taken as inputs of the
  reader and manager steps. Monitoring.cs is not part of this model.
- `File.Exists`, `FileInfo`, `DriveInfo` and the file streams are reduced to
  the facts they report: the `Request` fields and the byte sequences. Paths
  are not resolved and the drive is not looked up.
- `ValidateOperation` ends by creating the empty output file. The model has
  no file system, so that step is not modelled.
- `GZiper.Extension` follows .NET Core's `Path.GetExtension` with '/' and
  '\\' as separators. Platform differences in `FileInfo.Extension` are not
  modelled.
- `WriteProgress`, console messages and Program.cs's argument handling are
  user interface only and are not modelled.
- Exceptions from I/O (a failed read or write) are not modelled. Only the
  codec fault in a worker leads to cancellation; the writer never fails.
- The pipeline's writer frames blocks as the source does, with the
  truncating length prefix. The corrected `Output.WriteBlock` is not part of
  the pipeline; the round trip needs no ceiling check because its codec
  keeps every compressed block below 2^24 bytes.
- The exit status of `Environment.Exit(0)` is not modelled. Cancellation is
  a terminal flag.
- A worker started by `AddArchiver` runs its own `Compresser`. In the
  source, the new thread fetches its worker with `Archivers.Peek()` when it
  starts, so a later push or pop can make it run a different one. That race
  is not modelled.
- `WaitThreads` spins on `Peek().Done`. It is modelled as a step that pops
  the top worker once that worker is Done.
- Pipeline.PipelineRoundTrip: states the result only for runs that finish.
  Progress under fair scheduling is not proved.
- Pipeline.RunKeepsInv: proved only for runs whose block count agrees with
  the blocks in the input. That is the case for every archive this
  compressor writes. A corrupt archive whose header count disagrees is not
  characterised.
- Input.Read: models the read loop with the memory and queue gate open. The
  gate itself is modelled by `Input.ReadStep` and the pipeline.

## Findings

| source | as written | input that shows it | evidently intended | confidence | as-written member | corrected member |
|---|---|---|---|---|---|---|
| Veeam_GZiper/Output.cs:80 | writes the low 3 of the 4 bytes of the block length | a compressed block of exactly 2^24 bytes gets the prefix [0,0,0], so decompression reads it as 0 bytes | a length the prefix cannot hold is refused, not truncated | low; not executed; `GZipStream` output for a 1 MiB block stays far below 2^24 bytes, so only a codec that expands a block past 16 MiB reaches it | Format.TruncatedSizeMisread | Format.WriteBlockSize |
| Veeam_GZiper/GZiper.cs:146 | `(ushort)Math.Ceiling(length / 2^20)` | an input of 65536 × 2^20 bytes gets a header count of 0 while the reader makes 65536 blocks. The workers' loops end at once, since their counter already equals 0. Nobody dequeues, so the reader stalls once 101 blocks are queued. `Compress` then waits on the reader forever, leaving only the header written | inputs of more than 65535 blocks are refused | medium; not executed; a C# cast of an out-of-range `double` to `ushort` is unspecified, and the low-16-bits reading is assumed | GZiper.CountWrapsAsWritten | GZiper.Validate |
| Veeam_GZiper/GZiper.cs:171 | an archive of 10 bytes or fewer is rejected | compressing an empty file writes the 6-byte archive [0,0,0,0,0,0], which decompression then refuses | any archive holding a whole header is accepted | high; not executed | GZiper.EmptyArchiveRejectedAsWritten | GZiper.Validate |

=== FILE: blocks.dfy ===
/** The `BlockOfFile` value passed between the pipeline stages. */
module Blocks {
  import opened Bytes

  /** One block of the file: its sequence number and its bytes. A datatype
      value is immutable, as the source's get-only properties make the struct. */
  datatype Block = Block(number: ushort, bytes: seq<byte>)

  /** The byte strings of a list of blocks, in list order. */
  function Payloads(bs: seq<Block>): (ps: seq<seq<byte>>)
    ensures |ps| == |bs| && forall k | 0 <= k < |bs| :: ps[k] == bs[k].bytes
  {
    seq(|bs|, k requires 0 <= k < |bs| => bs[k].bytes)
  }

  lemma PayloadsCons(b: Block, rest: seq<Block>)
    ensures Payloads([b] + rest) == [b.bytes] + Payloads(rest)
  {
    assert forall k | 1 <= k < |rest| + 1 :: ([b] + rest)[k] == rest[k - 1];
  }

  /** All byte strings of `ps` one after another. */
  function Concat(ps: seq<seq<byte>>): seq<byte> {
    if |ps| == 0 then [] else ps[0] + Concat(ps[1..])
  }

  lemma {:induction false} ConcatAppend(ps: seq<seq<byte>>, p: seq<byte>)
    ensures Concat(ps + [p]) == Concat(ps) + p
  {
    if |ps| == 0 {
      assert ps + [p] == [p];
    } else {
      assert (ps + [p])[1..] == ps[1..] + [p];
      ConcatAppend(ps[1..], p);
    }
  }

  /** The blocks numbered `from`, `from + 1`, ... carrying `ps[from..]`: what a
      run should deliver when it is past the first `from` blocks. */
  function Numbered(ps: seq<seq<byte>>, from: nat): (bs: seq<Block>)
    requires |ps| <= USHORT_LIMIT && from <= |ps|
    ensures |bs| == |ps| - from
    ensures forall k | 0 <= k < |bs| :: bs[k] == Block(from + k, ps[from + k])
  {
    seq(|ps| - from, k requires 0 <= k < |ps| - from => Block(from + k, ps[from + k]))
  }

  lemma NumberedHead(ps: seq<seq<byte>>, from: nat)
    requires |ps| <= USHORT_LIMIT && from < |ps|
    ensures Numbered(ps, from) == [Block(from, ps[from])] + Numbered(ps, from + 1)
  {
  }
}

=== FILE: bytes.dfy ===
/** Bytes, 16-bit counters and the little-endian integer encodings that
    .NET's `BitConverter` produces and consumes on a little-endian host. */
module Bytes {

  /** An unsigned 8-bit value. */
  type byte = b: int | 0 <= b < 0x100

  /** An unsigned 16-bit value: the width of block numbers, `OrderId`
      counters and the archive's block count. */
  type ushort = n: int | 0 <= n < 0x1_0000

  const USHORT_LIMIT: nat := 0x1_0000

  /** `x++` on a C# `ushort`, which wraps around in an unchecked context. */
  function Inc16(x: ushort): (r: ushort)
    ensures x < 0xFFFF ==> r == x + 1
    ensures x == 0xFFFF ==> r == 0
  {
    (x + 1) % USHORT_LIMIT
  }

  /** A `ushort` counter incremented `k` times. */
  function Bump(x: ushort, k: nat): ushort {
    if k == 0 then x else Inc16(Bump(x, k - 1))
  }

  /** Incrementing first and then `k` times is incrementing `k + 1` times. */
  lemma {:induction false} BumpShift(x: ushort, k: nat)
    ensures Bump(Inc16(x), k) == Bump(x, k + 1)
  {
    if k > 0 {
      BumpShift(x, k - 1);
    }
  }

  function Pow256(k: nat): (p: nat)
    ensures p >= 1
  {
    if k == 0 then 1 else 256 * Pow256(k - 1)
  }

  /** The unsigned value of a little-endian byte string. */
  function FromLE(bs: seq<byte>): (n: nat)
    ensures n < Pow256(|bs|)
  {
    if |bs| == 0 then 0 else bs[0] + 256 * FromLE(bs[1..])
  }

  /** The low `width` bytes of `n`, least significant first: `BitConverter.GetBytes`
      followed by keeping the first `width` bytes. */
  function ToLE(n: nat, width: nat): (bs: seq<byte>)
    ensures |bs| == width
  {
    if width == 0 then [] else [n % 256] + ToLE(n / 256, width - 1)
  }

  function Zeros(n: nat): (z: seq<byte>)
    ensures |z| == n && forall i | 0 <= i < n :: z[i] == 0
  {
    seq(n, _ => 0)
  }

  lemma MulAtLeast(m: int, k: int)
    requires m > 0 && k >= 1
    ensures m * k >= m
  {
    assert m * k == m * (k - 1) + m;
  }

  lemma DivModUnique(n: int, m: int, q: int, r: int)
    requires m > 0 && n == m * q + r && 0 <= r < m
    ensures n / m == q && n % m == r
  {
    var q', r' := n / m, n % m;
    assert m * q + r == m * q' + r';
    assert m * (q - q') == r' - r;
    if q > q' {
      MulAtLeast(m, q - q');
    } else if q < q' {
      MulAtLeast(m, q' - q);
    }
  }

  /** Splitting a remainder by 256 * p into its lowest byte and the rest. */
  lemma ModSplit(n: nat, p: nat)
    requires p >= 1
    ensures n % (256 * p) == n % 256 + 256 * ((n / 256) % p)
  {
    var a, r := n / 256, n % 256;
    var c, d := a / p, a % p;
    assert a == p * c + d;
    assert n == 256 * a + r;
    assert n == (256 * p) * c + (256 * d + r) by {
      assert 256 * a == 256 * (p * c) + 256 * d;
      assert 256 * (p * c) == (256 * p) * c;
    }
    assert 0 <= 256 * d + r < 256 * p;
    DivModUnique(n, 256 * p, c, 256 * d + r);
  }

  /** Decoding an encoding recovers the value modulo the width: a value that
      does not fit is silently truncated to its low bytes. */
  lemma {:induction false} FromToLE(n: nat, width: nat)
    ensures FromLE(ToLE(n, width)) == n % Pow256(width)
  {
    if width > 0 {
      var bs := ToLE(n, width);
      assert bs[1..] == ToLE(n / 256, width - 1);
      FromToLE(n / 256, width - 1);
      ModSplit(n, Pow256(width - 1));
    }
  }

  /** A value below 256^width survives an encode/decode round trip. */
  lemma FromToLEExact(n: nat, width: nat)
    requires n < Pow256(width)
    ensures FromLE(ToLE(n, width)) == n
  {
    FromToLE(n, width);
  }

  /** Encoding a decoded byte string gives the byte string back. */
  lemma {:induction false} ToFromLE(bs: seq<byte>)
    ensures ToLE(FromLE(bs), |bs|) == bs
  {
    if |bs| > 0 {
      var n := FromLE(bs);
      var rest := FromLE(bs[1..]);
      assert n == bs[0] + 256 * rest;
      DivModUnique(n, 256, rest, bs[0]);
      ToFromLE(bs[1..]);
    }
  }

  /** Truncating an encoding keeps the encoding of the narrower width. */
  lemma {:induction false} ToLEPrefix(n: nat, width: nat, k: nat)
    requires k <= width
    ensures ToLE(n, width)[..k] == ToLE(n, k)
  {
    if k > 0 {
      ToLEPrefix(n / 256, width - 1, k - 1);
    }
  }

  /** A little-endian value is zero exactly when every byte is zero. */
  lemma {:induction false} FromLEZero(bs: seq<byte>)
    ensures FromLE(bs) == 0 <==> forall i | 0 <= i < |bs| :: bs[i] == 0
  {
    if |bs| > 0 {
      FromLEZero(bs[1..]);
      assert forall i | 1 <= i < |bs| :: bs[i] == bs[1..][i - 1];
    }
  }
}

=== FILE: compresser.dfy ===
/** One worker of Compresser.cs: takes a block from the work queue, runs the
    codec on it and deposits the result, under the same number, in the
    writer's reorder buffer. The codec (GZipStream) is a parameter. */
module Compresser {
  import opened Wrappers
  import opened Bytes
  import opened Blocks
  import opened WorkQueue
  import Output

  /** Compress or decompress one block's bytes; `None` is a corrupt-data
      failure, which the worker turns into cancellation. */
  type Codec = seq<byte> -> Option<seq<byte>>

  /** A worker's flags and the block it holds between taking and depositing. */
  datatype Worker = Worker(interrupted: bool, done: bool, inFlight: Option<Block>)

  /** The constructor: neither interrupted nor done. */
  function NewWorker(): (w: Worker)
    ensures !w.interrupted && !w.done && w.inFlight.None?
  {
    Worker(false, false, None)
  }

  /** `Interrup`: sets the flag and touches nothing else, so a block being
      transformed is still finished and deposited. */
  function Interrupt(w: Worker): (w': Worker)
    ensures w'.interrupted && w'.done == w.done && w'.inFlight == w.inFlight
  {
    w.(interrupted := true)
  }

  /** The loop condition of `Start`. */
  predicate LoopContinues(w: Worker, taken: ushort, blocksCount: ushort) {
    !w.interrupted && taken != blocksCount
  }

  /** `CompressBlock` / `DecompressBlock`: the codec's output under the input
      block's number. */
  function Transform(b: Block, codec: Codec): (r: Option<Block>)
    ensures r.None? <==> codec(b.bytes).None?
    ensures r.Some? ==> r.value.number == b.number && codec(b.bytes) == Some(r.value.bytes)
  {
    match codec(b.bytes)
    case None => None
    case Some(p) => Some(Block(b.number, p))
  }

  datatype WorkerOutcome = WorkerOutcome(worker: Worker, queue: WorkQueue, buffer: seq<Block>, failed: bool)

  /** One atomic step of the worker's `Start` loop. A worker holding a block
      transforms and deposits it (even when interrupted meanwhile); an idle
      worker checks the loop condition and then tries to take a block. */
  function Step(w: Worker, q: WorkQueue, buffer: seq<Block>, blocksCount: ushort, codec: Codec)
    : (r: WorkerOutcome)
    // a finished worker does nothing
    ensures w.done ==> r == WorkerOutcome(w, q, buffer, false)
    // the loop exits between blocks: Done is set and nothing else moves
    ensures !w.done && w.inFlight.None? && !LoopContinues(w, q.orderId, blocksCount) ==>
              r == WorkerOutcome(w.(done := true), q, buffer, false)
    // an empty queue gives no block; the worker retries later
    ensures !w.done && w.inFlight.None? && LoopContinues(w, q.orderId, blocksCount) && |q.items| == 0 ==>
              r == WorkerOutcome(w, q, buffer, false)
    // otherwise the head of the queue is taken
    ensures !w.done && w.inFlight.None? && LoopContinues(w, q.orderId, blocksCount) && |q.items| > 0 ==>
              && r.worker == w.(inFlight := Some(q.items[0]))
              && r.queue == Dequeue(q).1 && r.buffer == buffer && !r.failed
    // a held block yields exactly one deposited block with the same number
    ensures !w.done && w.inFlight.Some? && codec(w.inFlight.value.bytes).Some? ==>
              && r.worker == w.(inFlight := None) && r.queue == q && !r.failed
              && |r.buffer| == |buffer| + 1 && r.buffer[..|buffer|] == buffer
              && r.buffer[|buffer|].number == w.inFlight.value.number
              && Some(r.buffer[|buffer|].bytes) == codec(w.inFlight.value.bytes)
    // a codec fault ends the loop, sets Done, and cancels the run
    ensures !w.done && w.inFlight.Some? && codec(w.inFlight.value.bytes).None? ==>
              r == WorkerOutcome(w.(done := true), q, buffer, true)
  {
    if w.done then WorkerOutcome(w, q, buffer, false)
    else match w.inFlight
      case Some(b) =>
        (match Transform(b, codec)
         case None => WorkerOutcome(w.(done := true), q, buffer, true)
         case Some(out) => WorkerOutcome(w.(inFlight := None), q, Output.AddBlock(buffer, out), false))
      case None =>
        if !LoopContinues(w, q.orderId, blocksCount) then WorkerOutcome(w.(done := true), q, buffer, false)
        else match Dequeue(q)
          case (None, _) => WorkerOutcome(w, q, buffer, false)
          case (Some(b), q') => WorkerOutcome(w.(inFlight := Some(b)), q', buffer, false)
  }
}

=== FILE: format.dfy ===
/** The `.gzz` archive layout: a four-byte all-zero key, a two-byte
    little-endian block count, then per block a three-byte little-endian
    length and the compressed bytes. Writers are from Output.cs, readers
    from Input.cs. */
module Format {
  import opened Wrappers
  import opened Bytes

  const KEY_LENGTH: nat := 4
  const COUNT_LENGTH: nat := 2
  const SIZE_LENGTH: nat := 3
  /** Where the first block starts: `ReadBlocksCount` leaves the stream here. */
  const HEADER_LENGTH: nat := 6
  /** The first length the three-byte prefix cannot hold (2^24). */
  const SIZE_LIMIT: nat := 0x100_0000

  /** What `Read(buffer, 0, n)` leaves in a zeroed buffer of `n` bytes when the
      stream is at `pos`: the bytes that exist, then the untouched zeros. */
  function ReadPadded(s: seq<byte>, pos: nat, n: nat): (buf: seq<byte>)
    ensures |buf| == n
    ensures forall i | 0 <= i < n :: buf[i] == if pos + i < |s| then s[pos + i] else 0
  {
    if pos >= |s| then Zeros(n)
    else
      var avail := Min(n, |s| - pos);
      s[pos..pos + avail] + Zeros(n - avail)
  }

  /** `Output.WriteKey`. */
  function WriteKey(): (key: seq<byte>)
    ensures |key| == KEY_LENGTH
    ensures forall i | 0 <= i < |key| :: key[i] == 0
  {
    [0, 0, 0, 0]
  }

  /** `Output.WriteBlocksCount`: the two bytes of the count, low byte first. */
  function WriteBlocksCount(count: ushort): (bs: seq<byte>)
    ensures |bs| == COUNT_LENGTH
    ensures FromLE(bs) == count
  {
    FromToLEExact(count, COUNT_LENGTH);
    ToLE(count, COUNT_LENGTH)
  }

  /** The archive header `Compress` writes before any block. */
  function Header(count: ushort): (h: seq<byte>)
    ensures |h| == HEADER_LENGTH
    ensures forall i | 0 <= i < KEY_LENGTH :: h[i] == 0
    ensures FromLE(h[KEY_LENGTH..]) == count
  {
    assert (WriteKey() + WriteBlocksCount(count))[KEY_LENGTH..] == WriteBlocksCount(count);
    WriteKey() + WriteBlocksCount(count)
  }

  /** `Input.ReadAndCheckKey`: the first four bytes, read as a little-endian
      `uint`, equal the key 0. */
  function ReadAndCheckKey(s: seq<byte>): (ok: bool)
    ensures ok <==> forall i | 0 <= i < KEY_LENGTH && i < |s| :: s[i] == 0
  {
    var key := ReadPadded(s, 0, KEY_LENGTH);
    FromLEZero(key);
    assert forall i | 0 <= i < KEY_LENGTH :: key[i] == if i < |s| then s[i] else 0;
    FromLE(key) == 0
  }

  /** `Input.ReadBlocksCount`: bytes 4 and 5 as a little-endian `ushort`. */
  function ReadBlocksCount(s: seq<byte>): (count: ushort)
    ensures |s| >= HEADER_LENGTH ==> count == s[4] as int + 256 * s[5] as int
  {
    var buf := ReadPadded(s, KEY_LENGTH, COUNT_LENGTH);
    FromLETwo(buf);
    assert Pow256(COUNT_LENGTH) == USHORT_LIMIT;
    FromLE(buf)
  }

  /** `Output.WriteBlockSize` as written: the first three bytes of the four
      that `BitConverter.GetBytes(int)` gives, so a size of 2^24 or more loses
      its high byte. */
  function WriteBlockSizeAsWritten(size: nat): (bs: seq<byte>)
    ensures |bs| == SIZE_LENGTH
    ensures FromLE(bs) == size % SIZE_LIMIT
  {
    ToLEPrefix(size, 4, SIZE_LENGTH);
    FromToLE(size, SIZE_LENGTH);
    ToLE(size, 4)[..SIZE_LENGTH]
  }

  /** The length prefix with the format's ceiling enforced: a size the three
      bytes cannot hold is refused instead of being truncated. */
  function WriteBlockSize(size: nat): (r: Option<seq<byte>>)
    ensures r.Some? <==> size < SIZE_LIMIT
    ensures r.Some? ==> |r.value| == SIZE_LENGTH && FromLE(r.value) == size
    ensures r.Some? ==> r.value == WriteBlockSizeAsWritten(size)
  {
    if size < SIZE_LIMIT then Some(WriteBlockSizeAsWritten(size)) else None
  }

  /** `Input.ReadBlockSize`: up to three bytes at `pos` into a zeroed four-byte
      buffer, read as a `uint`; returns the size and the new position. */
  function ReadBlockSize(s: seq<byte>, pos: nat): (r: (nat, nat))
    requires pos <= |s|
    ensures r.0 < SIZE_LIMIT
    ensures r.1 == pos + Min(SIZE_LENGTH, |s| - pos)
    ensures pos + SIZE_LENGTH <= |s| ==> r.0 == FromLE(s[pos..pos + SIZE_LENGTH])
    ensures r.0 == FromLE(s[pos..r.1])
  {
    PaddedValue(s, pos, SIZE_LENGTH);
    var buf := ReadPadded(s, pos, SIZE_LENGTH) + [0];
    assert buf[..SIZE_LENGTH] + [0] == buf;
    assert Pow256(SIZE_LENGTH) == SIZE_LIMIT;
    FromLEAppendZero(buf[..SIZE_LENGTH]);
    assert pos + SIZE_LENGTH <= |s| ==> buf[..SIZE_LENGTH] == s[pos..pos + SIZE_LENGTH];
    (FromLE(buf), pos + Min(SIZE_LENGTH, |s| - pos))
  }

  /** The value of two little-endian bytes. */
  lemma FromLETwo(bs: seq<byte>)
    requires |bs| == 2
    ensures FromLE(bs) == bs[0] as int + 256 * bs[1] as int
  {
    assert bs[1..][1..] == [];
  }

  /** A zero-padded read holds the value of the bytes that were there. */
  lemma PaddedValue(s: seq<byte>, pos: nat, n: nat)
    requires pos <= |s|
    ensures FromLE(ReadPadded(s, pos, n)) == FromLE(s[pos..pos + Min(n, |s| - pos)])
  {
    var avail := Min(n, |s| - pos);
    if pos < |s| {
      assert ReadPadded(s, pos, n) == s[pos..pos + avail] + Zeros(n - avail);
      FromLEAppendZeros(s[pos..pos + avail], n - avail);
    } else {
      FromLEAppendZeros([], n);
      assert [] + Zeros(n) == ReadPadded(s, pos, n);
    }
  }

  /** Zeros after the last byte do not change a little-endian value. */
  lemma {:induction false} FromLEAppendZeros(bs: seq<byte>, n: nat)
    ensures FromLE(bs + Zeros(n)) == FromLE(bs)
  {
    if n > 0 {
      assert bs + Zeros(n) == (bs + Zeros(n - 1)) + [0];
      FromLEAppendZero(bs + Zeros(n - 1));
      FromLEAppendZeros(bs, n - 1);
    } else {
      assert bs + Zeros(0) == bs;
    }
  }

  lemma {:induction false} FromLEAppendZero(bs: seq<byte>)
    ensures FromLE(bs + [0]) == FromLE(bs)
  {
    if |bs| > 0 {
      assert (bs + [0])[1..] == bs[1..] + [0];
      FromLEAppendZero(bs[1..]);
    } else {
      assert bs + [0] == [0];
    }
  }

  /** One block as `WriteBlock` lays it out: the length prefix in compress
      mode, then the bytes. */
  function Frame(p: seq<byte>, compress: bool): (f: seq<byte>)
    ensures compress ==>
              && |f| == SIZE_LENGTH + |p| && f[SIZE_LENGTH..] == p
              && FromLE(f[..SIZE_LENGTH]) == |p| % SIZE_LIMIT
    ensures !compress ==> f == p
  {
    (if compress then WriteBlockSizeAsWritten(|p|) else []) + p
  }

  /** Blocks framed one after another. */
  function Frames(ps: seq<seq<byte>>, compress: bool): seq<byte> {
    if |ps| == 0 then [] else Frame(ps[0], compress) + Frames(ps[1..], compress)
  }

  lemma {:induction false} FramesAppend(ps: seq<seq<byte>>, p: seq<byte>, compress: bool)
    ensures Frames(ps + [p], compress) == Frames(ps, compress) + Frame(p, compress)
  {
    if |ps| == 0 {
      assert ps + [p] == [p];
    } else {
      assert (ps + [p])[1..] == ps[1..] + [p];
      FramesAppend(ps[1..], p, compress);
    }
  }

  /** The key written by `WriteKey` passes `ReadAndCheckKey`, and the count
      written by `WriteBlocksCount` is the one `ReadBlocksCount` reads back,
      whatever follows the header. */
  lemma HeaderRoundTrip(count: ushort, rest: seq<byte>)
    ensures ReadAndCheckKey(Header(count) + rest)
    ensures ReadBlocksCount(Header(count) + rest) == count
  {
    var s := Header(count) + rest;
    var c := WriteBlocksCount(count);
    assert s[4] == c[0] && s[5] == c[1];
    FromLETwo(c);
  }

  /** A size below 2^24 written by `WriteBlockSize` is read back by
      `ReadBlockSize`, wherever it sits in the stream. */
  lemma SizeRoundTrip(pre: seq<byte>, size: nat, rest: seq<byte>)
    requires size < SIZE_LIMIT
    ensures var s := pre + WriteBlockSizeAsWritten(size) + rest;
            ReadBlockSize(s, |pre|) == (size, |pre| + SIZE_LENGTH)
  {
    var enc := WriteBlockSizeAsWritten(size);
    var s := pre + enc + rest;
    assert s[|pre|..|pre| + SIZE_LENGTH] == enc;
  }

  /** The length prefix as written reads back as 0 for a payload of exactly
      2^24 bytes. */
  lemma TruncatedSizeMisread()
    ensures WriteBlockSizeAsWritten(SIZE_LIMIT) == [0, 0, 0]
    ensures ReadBlockSize(WriteBlockSizeAsWritten(SIZE_LIMIT), 0).0 == 0
    ensures WriteBlockSize(SIZE_LIMIT) == None
  {
    var bs := WriteBlockSizeAsWritten(SIZE_LIMIT);
    assert FromLE(bs) == 0;
    FromLEZero(bs);
    assert bs[0..SIZE_LENGTH] == bs;
  }
}

=== FILE: gziper.dfy ===
/** The checks of GZiper.cs run before the pipeline starts, as a pure
    decision over the file-system facts they consult, and the block count the
    compressor writes into the header. */
module GZiper {
  import opened Wrappers
  import opened Bytes
  import opened Format
  import opened Input

  /** An archive must be longer than this to be accepted for decompression. */
  const MIN_FILE_LENGTH: nat := 10
  /** Free space must be at least 110 percent of the input length. */
  const MAX_PERCENTAGE_OF_FILE_SIZE: nat := 110
  const ARCHIVE_EXTENSION: string := ".gzz"

  /** One kind per exception `ValidateOperation` throws, plus the block-count
      ceiling the corrected check adds. */
  datatype ValidationError =
    | InputNotFound
    | AlreadyCompressed
    | NotCompressed
    | NotEnoughSpace
    | TooManyBlocks
    | WrongOutputName
    | OutputExists
    | OutputNeedsArchiveExtension
    | OutputHasArchiveExtension
    | WrongInputFormat

  datatype Verdict = Valid | Invalid(error: ValidationError)

  /** The operation requested and what the file system reports: whether each
      file exists, the free space on the input's drive, and the input's bytes
      (their number is the file length). */
  datatype Request = Request(
    inFile: string, outFile: string, compress: bool,
    inExists: bool, outExists: bool, freeSpace: int, input: seq<byte>)

  predicate IsSeparator(c: char) {
    c == '/' || c == '\\'
  }

  predicate EndsWith(s: string, suffix: string) {
    |suffix| <= |s| && s[|s| - |suffix|..] == suffix
  }

  /** The extension of `path` as `Path.GetExtension` finds it, scanning back
      from index `i`: the rest of the path from the first '.' met, unless a
      directory separator comes first or the '.' is the last character. */
  function ExtensionOf(path: string, i: nat): (ext: string)
    requires i <= |path|
    requires forall k | i <= k < |path| :: path[k] != '.' && !IsSeparator(path[k])
    ensures ext != "" ==> |ext| >= 2 && ext[0] == '.' && EndsWith(path, ext)
    ensures ext != "" ==> forall k | 1 <= k < |ext| :: ext[k] != '.' && !IsSeparator(ext[k])
    ensures forall d | 0 <= d < i && d + 1 < |path| && path[d] == '.' ::
              (forall k | d < k < i :: path[k] != '.' && !IsSeparator(path[k])) ==> ext == path[d..]
  {
    if i == 0 then ""
    else if path[i - 1] == '.' then
      if i == |path| then "" else path[i - 1..]
    else if IsSeparator(path[i - 1]) then ""
    else ExtensionOf(path, i - 1)
  }

  function Extension(path: string): string {
    ExtensionOf(path, |path|)
  }

  /** A path has the archive extension exactly when it ends in ".gzz". */
  lemma ArchiveExtensionIsSuffix(path: string)
    ensures Extension(path) == ARCHIVE_EXTENSION <==> EndsWith(path, ARCHIVE_EXTENSION)
  {
    var n := |path|;
    if EndsWith(path, ARCHIVE_EXTENSION) {
      assert path[n - 4..] == ARCHIVE_EXTENSION;
      assert path[n - 1] == 'z' && path[n - 2] == 'z' && path[n - 3] == 'g' && path[n - 4] == '.';
      assert ExtensionOf(path, n) == ExtensionOf(path, n - 1);
      assert ExtensionOf(path, n - 1) == ExtensionOf(path, n - 2);
      assert ExtensionOf(path, n - 2) == ExtensionOf(path, n - 3);
      assert ExtensionOf(path, n - 3) == path[n - 4..];
    }
  }

  /** `BlocksCount` as written: the ceiling of length / 2^20, cast to
      `ushort`, which keeps the low 16 bits. Up to 65535 MiB it covers the
      input exactly; above that it always falls short. */
  function BlocksCountAsWritten(length: nat): (count: ushort)
    ensures length <= 0xFFFF * MEGA ==> count * MEGA >= length && (count == 0 || (count - 1) * MEGA < length)
    ensures length > 0xFFFF * MEGA ==> count * MEGA < length
  {
    BlocksCountBounds(length);
    CeilDiv(length, MEGA) % USHORT_LIMIT
  }

  lemma BlocksCountBounds(length: nat)
    ensures CeilDiv(length, MEGA) * MEGA >= length
    ensures CeilDiv(length, MEGA) == 0 || (CeilDiv(length, MEGA) - 1) * MEGA < length
    ensures length <= 0xFFFF * MEGA ==> CeilDiv(length, MEGA) <= 0xFFFF
  {
    var q, r := (length + MEGA - 1) / MEGA, (length + MEGA - 1) % MEGA;
    assert length + MEGA - 1 == q * MEGA + r;
    if length <= 0xFFFF * MEGA {
      assert q * MEGA <= length + MEGA - 1 < (0xFFFF + 1) * MEGA;
      if q > 0xFFFF {
        MulAtLeast(MEGA, q - 0xFFFF);
      }
    }
  }

  /** The conditions `ValidateOperation` checks, stated declaratively. */
  predicate ChecksPassAsWritten(r: Request) {
    && r.inExists
    && (EndsWith(r.inFile, ARCHIVE_EXTENSION) <==> !r.compress)
    && r.freeSpace >= |r.input| / 100 * MAX_PERCENTAGE_OF_FILE_SIZE
    && r.outFile != ""
    && !r.outExists
    && (EndsWith(r.outFile, ARCHIVE_EXTENSION) <==> r.compress)
    && (!r.compress ==> |r.input| > MIN_FILE_LENGTH && ReadAndCheckKey(r.input))
  }

  /** `ValidateOperation` as written, in its order of checks. */
  function ValidateAsWritten(r: Request): (v: Verdict)
    ensures v == Valid <==> ChecksPassAsWritten(r)
    ensures !r.inExists ==> v == Invalid(InputNotFound)
    ensures r.inExists && r.compress && EndsWith(r.inFile, ARCHIVE_EXTENSION) ==> v == Invalid(AlreadyCompressed)
    ensures r.inExists && !r.compress && !EndsWith(r.inFile, ARCHIVE_EXTENSION) ==> v == Invalid(NotCompressed)
    ensures v == Invalid(WrongInputFormat) ==> !r.compress
  {
    ArchiveExtensionIsSuffix(r.inFile);
    ArchiveExtensionIsSuffix(r.outFile);
    if !r.inExists then Invalid(InputNotFound)
    else if Extension(r.inFile) == ARCHIVE_EXTENSION && r.compress then Invalid(AlreadyCompressed)
    else if Extension(r.inFile) != ARCHIVE_EXTENSION && !r.compress then Invalid(NotCompressed)
    else if r.freeSpace < |r.input| / 100 * MAX_PERCENTAGE_OF_FILE_SIZE then Invalid(NotEnoughSpace)
    else if r.outFile == "" then Invalid(WrongOutputName)
    else if r.outExists then Invalid(OutputExists)
    else if Extension(r.outFile) != ARCHIVE_EXTENSION && r.compress then Invalid(OutputNeedsArchiveExtension)
    else if Extension(r.outFile) == ARCHIVE_EXTENSION && !r.compress then Invalid(OutputHasArchiveExtension)
    else if !r.compress && (|r.input| <= MIN_FILE_LENGTH || !ReadAndCheckKey(r.input)) then Invalid(WrongInputFormat)
    else Valid
  }

  /** The conditions the corrected check adds to or relaxes in the written
      ones: an input of more than 65535 blocks is refused, and an archive
      only needs a whole header. */
  predicate ChecksPass(r: Request) {
    && r.inExists
    && (EndsWith(r.inFile, ARCHIVE_EXTENSION) <==> !r.compress)
    && r.freeSpace >= |r.input| / 100 * MAX_PERCENTAGE_OF_FILE_SIZE
    && (r.compress ==> CeilDiv(|r.input|, MEGA) <= 0xFFFF)
    && r.outFile != ""
    && !r.outExists
    && (EndsWith(r.outFile, ARCHIVE_EXTENSION) <==> r.compress)
    && (!r.compress ==> |r.input| >= HEADER_LENGTH && ReadAndCheckKey(r.input))
  }

  /** `ValidateOperation` with the two corrections. */
  function Validate(r: Request): (v: Verdict)
    ensures v == Valid <==> ChecksPass(r)
    ensures !r.inExists ==> v == Invalid(InputNotFound)
    ensures r.inExists && r.compress && EndsWith(r.inFile, ARCHIVE_EXTENSION) ==> v == Invalid(AlreadyCompressed)
    ensures r.inExists && !r.compress && !EndsWith(r.inFile, ARCHIVE_EXTENSION) ==> v == Invalid(NotCompressed)
    ensures v == Invalid(TooManyBlocks) ==> r.compress && CeilDiv(|r.input|, MEGA) > 0xFFFF
  {
    ArchiveExtensionIsSuffix(r.inFile);
    ArchiveExtensionIsSuffix(r.outFile);
    if !r.inExists then Invalid(InputNotFound)
    else if Extension(r.inFile) == ARCHIVE_EXTENSION && r.compress then Invalid(AlreadyCompressed)
    else if Extension(r.inFile) != ARCHIVE_EXTENSION && !r.compress then Invalid(NotCompressed)
    else if r.freeSpace < |r.input| / 100 * MAX_PERCENTAGE_OF_FILE_SIZE then Invalid(NotEnoughSpace)
    else if r.compress && CeilDiv(|r.input|, MEGA) > 0xFFFF then Invalid(TooManyBlocks)
    else if r.outFile == "" then Invalid(WrongOutputName)
    else if r.outExists then Invalid(OutputExists)
    else if Extension(r.outFile) != ARCHIVE_EXTENSION && r.compress then Invalid(OutputNeedsArchiveExtension)
    else if Extension(r.outFile) == ARCHIVE_EXTENSION && !r.compress then Invalid(OutputHasArchiveExtension)
    else if !r.compress && (|r.input| < HEADER_LENGTH || !ReadAndCheckKey(r.input)) then Invalid(WrongInputFormat)
    else Valid
  }

  /** The block count the compressor uses once the corrected check passed. */
  function BlocksCount(length: nat): (count: ushort)
    requires CeilDiv(length, MEGA) <= 0xFFFF
    ensures count * MEGA >= length && (count == 0 || (count - 1) * MEGA < length)
  {
    BlocksCountBounds(length);
    CeilDiv(length, MEGA)
  }

  /** Wherever the corrected check lets an input through, the corrected
      count is the count as written: the cast keeps every bit. */
  lemma CountsAgreeBelowCeiling(length: nat)
    requires CeilDiv(length, MEGA) <= 0xFFFF
    ensures BlocksCount(length) == BlocksCountAsWritten(length)
  {
    DivModUnique(CeilDiv(length, MEGA), USHORT_LIMIT, 0, CeilDiv(length, MEGA));
  }

  /** After the corrected check, the header's block count is the number of
      blocks the reader cuts the input into. */
  lemma ValidCountMatchesReader(r: Request)
    requires r.compress && Validate(r) == Valid
    ensures BlocksCount(|r.input|) == |ReadFrom(r.input, 0, MEGA, 0)|
  {
    ChunkCount(r.input, 0, MEGA, 0);
  }

  /** For every input, the count as written is the number of blocks the
      reader cuts it into, reduced modulo 65536. */
  lemma CountAsWrittenIsReaderCountMod(data: seq<byte>)
    ensures BlocksCountAsWritten(|data|) == |ReadFrom(data, 0, MEGA, 0)| % USHORT_LIMIT
  {
    ChunkCount(data, 0, MEGA, 0);
  }

  /** The written count wraps: an input of 65536 MiB passes every written
      check given room and names, yet its header would say 0 blocks while the
      reader cuts it into 65536; the corrected check refuses it. */
  lemma CountWrapsAsWritten(r: Request)
    requires r.compress && |r.input| == USHORT_LIMIT * MEGA
    ensures BlocksCountAsWritten(|r.input|) == 0
    ensures |ReadFrom(r.input, 0, MEGA, 0)| == USHORT_LIMIT
    ensures Validate(r) != Valid
  {
    ChunkCount(r.input, 0, MEGA, 0);
    DivModUnique(|r.input| + MEGA - 1, MEGA, USHORT_LIMIT, MEGA - 1);
  }

  /** The archive of an empty input is its 6-byte header; the written check
      refuses to decompress it, the corrected one accepts it. */
  lemma EmptyArchiveRejectedAsWritten(freeSpace: nat)
    ensures var r := Request("a.gzz", "a", false, true, false, freeSpace, Header(0));
            && ValidateAsWritten(r) == Invalid(WrongInputFormat)
            && Validate(r) == Valid
  {
    var r := Request("a.gzz", "a", false, true, false, freeSpace, Header(0));
    HeaderRoundTrip(0, []);
    assert Header(0) + [] == Header(0);
    assert !EndsWith(r.outFile, ARCHIVE_EXTENSION);
    assert EndsWith(r.inFile, ARCHIVE_EXTENSION);
  }

  /** Every archive the compressor writes (a header, then anything) passes
      the corrected decompression format check. */
  lemma ArchivesPassFormatCheck(count: ushort, rest: seq<byte>)
    ensures |Header(count) + rest| >= HEADER_LENGTH && ReadAndCheckKey(Header(count) + rest)
  {
    HeaderRoundTrip(count, rest);
  }
}

=== FILE: input.dfy ===
/** The reader of Input.cs: cuts the source into numbered blocks, either of a
    fixed size (compress) or of the size given by each block's three-byte
    prefix (decompress). The stream is the byte sequence plus a position. */
module Input {
  import opened Wrappers
  import opened Bytes
  import opened Blocks
  import opened Format

  /** The block size `Compress` configures: one mebibyte. */
  const MEGA: nat := 0x10_0000
  /** The reader waits unless more RAM than this is available. */
  const MAX_AVAILABLE_MEMORY: int := 512
  /** The reader waits while the work queue holds more blocks than this. */
  const MAX_BLOCK_COUNT: nat := 100

  /** A reader configured with a non-zero block size compresses; the
      parameterless reader (block size 0) decompresses. */
  predicate IsCompress(compressBlockSize: nat) {
    compressBlockSize != 0
  }

  /** The read loop's gate: it goes on only when the RAM reading is above the
      floor and the queue is not above its ceiling. */
  predicate MayRead(ram: int, queueDepth: nat) {
    ram > MAX_AVAILABLE_MEMORY && queueDepth <= MAX_BLOCK_COUNT
  }

  function CeilDiv(n: nat, d: nat): nat
    requires d > 0
  {
    (n + d - 1) / d
  }

  /** `ReadBlock`: a block of `blockSize` bytes, or of what is left when less
      remains, numbered `id`; returns it with the position after it. */
  function ReadBlock(data: seq<byte>, pos: nat, blockSize: nat, id: ushort): (r: (Block, nat))
    requires pos <= |data|
    ensures |r.0.bytes| == Min(blockSize, |data| - pos)
    ensures r.1 == pos + |r.0.bytes| && r.0.bytes == data[pos..r.1]
    ensures r.0.number == id
  {
    var sizeOfEnd := |data| - pos;
    var len := if sizeOfEnd < blockSize then sizeOfEnd else blockSize;
    (Block(id, data[pos..pos + len]), pos + len)
  }

  /** One turn of the read loop once the gate is open: the block size is the
      configured one in compress mode and the prefix's value otherwise. */
  function NextBlock(data: seq<byte>, pos: nat, compressBlockSize: nat, id: ushort): (r: (Block, nat))
    requires pos < |data|
    ensures pos < r.1 <= |data|
    ensures r.0.number == id
    ensures IsCompress(compressBlockSize) ==>
              && |r.0.bytes| == Min(compressBlockSize, |data| - pos)
              && r.0.bytes == data[pos..r.1]
    ensures !IsCompress(compressBlockSize) ==>
              var (size, start) := ReadBlockSize(data, pos);
              && start <= r.1
              && |r.0.bytes| == Min(size, |data| - start)
              && r.0.bytes == data[start..r.1]
  {
    if IsCompress(compressBlockSize) then
      ReadBlock(data, pos, compressBlockSize, id)
    else
      var (size, start) := ReadBlockSize(data, pos);
      ReadBlock(data, start, size, id)
  }

  /** Every block the read loop produces from `pos` to the end of the stream
      when it starts with counter `id`. */
  function ReadFrom(data: seq<byte>, pos: nat, compressBlockSize: nat, id: ushort): (bs: seq<Block>)
    ensures |bs| == 0 <==> pos >= |data|
    decreases |data| - pos
  {
    if pos >= |data| then []
    else
      var (b, next) := NextBlock(data, pos, compressBlockSize, id);
      [b] + ReadFrom(data, next, compressBlockSize, Inc16(id))
  }

  /** Block `k` of the loop is numbered `k` past the starting counter,
      modulo 65536. */
  lemma {:induction false} ReadFromNumbered(data: seq<byte>, pos: nat, compressBlockSize: nat, id: ushort, k: nat)
    requires k < |ReadFrom(data, pos, compressBlockSize, id)|
    ensures ReadFrom(data, pos, compressBlockSize, id)[k].number == (id + k) % USHORT_LIMIT
    decreases k
  {
    var (b, next) := NextBlock(data, pos, compressBlockSize, id);
    var rest := ReadFrom(data, next, compressBlockSize, Inc16(id));
    assert ReadFrom(data, pos, compressBlockSize, id) == [b] + rest;
    if k == 0 {
      DivModUnique(id as int, USHORT_LIMIT, 0, id as int);
    } else {
      ReadFromNumbered(data, next, compressBlockSize, Inc16(id), k - 1);
      Inc16IsMod(id);
      ModShift(id + 1, k - 1);
    }
  }

  lemma Inc16IsMod(x: ushort)
    ensures Inc16(x) == (x + 1) % USHORT_LIMIT
  {
    if x < 0xFFFF {
      DivModUnique(x + 1, USHORT_LIMIT, 0, x + 1);
    } else {
      DivModUnique(x + 1, USHORT_LIMIT, 1, 0);
    }
  }

  /** Adding to a number and reducing commutes with reducing first. */
  lemma ModShift(n: nat, k: nat)
    ensures ((n % USHORT_LIMIT) + k) % USHORT_LIMIT == (n + k) % USHORT_LIMIT
  {
    var q, r := n / USHORT_LIMIT, n % USHORT_LIMIT;
    var q2, r2 := (r + k) / USHORT_LIMIT, (r + k) % USHORT_LIMIT;
    assert n + k == USHORT_LIMIT * (q + q2) + r2;
    DivModUnique(n + k, USHORT_LIMIT, q + q2, r2);
  }

  /** Counters and position of one reader; `started` is the re-entrancy flag. */
  datatype ReaderState = ReaderState(pos: nat, orderId: ushort, started: bool)

  /** One pass of the read loop: nothing when the stream is exhausted or the
      gate is closed, otherwise the next block, which goes to the queue. */
  function ReadStep(rs: ReaderState, data: seq<byte>, compressBlockSize: nat, ram: int, queueDepth: nat)
    : (r: (ReaderState, Option<Block>))
    ensures rs.pos >= |data| || !MayRead(ram, queueDepth) ==> r == (rs, None)
    ensures rs.pos < |data| && MayRead(ram, queueDepth) ==>
              && r.1.Some? && r.1.value.number == rs.orderId
              && r.0.orderId == Inc16(rs.orderId) && r.0.pos > rs.pos
              && [r.1.value] + ReadFrom(data, r.0.pos, compressBlockSize, r.0.orderId)
                 == ReadFrom(data, rs.pos, compressBlockSize, rs.orderId)
  {
    if rs.pos >= |data| || !MayRead(ram, queueDepth) then (rs, None)
    else
      var (b, next) := NextBlock(data, rs.pos, compressBlockSize, rs.orderId);
      (rs.(pos := next, orderId := Inc16(rs.orderId)), Some(b))
  }

  /** `Read` with the gate open: a call while another is running returns at
      once; otherwise the loop reads to the end of the stream. */
  method Read(rs: ReaderState, data: seq<byte>, compressBlockSize: nat)
    returns (rs': ReaderState, blocks: seq<Block>)
    ensures rs.started ==> rs' == rs && blocks == []
    ensures !rs.started ==>
              && blocks == ReadFrom(data, rs.pos, compressBlockSize, rs.orderId)
              && rs'.pos >= |data| && !rs'.started
              && rs'.orderId == (rs.orderId + |blocks|) % USHORT_LIMIT
  {
    if rs.started {
      return rs, [];
    }
    var pos, id := rs.pos, rs.orderId;
    blocks := [];
    while pos < |data|
      invariant blocks + ReadFrom(data, pos, compressBlockSize, id)
                == ReadFrom(data, rs.pos, compressBlockSize, rs.orderId)
      invariant id == Bump(rs.orderId, |blocks|)
      decreases |data| - pos
    {
      var (b, next) := NextBlock(data, pos, compressBlockSize, id);
      ReadLoopStep(data, compressBlockSize, blocks, pos, id);
      blocks := blocks + [b];
      pos, id := next, Inc16(id);
    }
    assert blocks + [] == blocks;
    BumpMod(rs.orderId, |blocks|);
    rs' := ReaderState(pos, id, false);
  }

  /** One pass of the loop moves the next block from what is left to read
      onto what has been read. */
  lemma ReadLoopStep(data: seq<byte>, compressBlockSize: nat, blocks: seq<Block>, pos: nat, id: ushort)
    requires pos < |data|
    ensures var (b, next) := NextBlock(data, pos, compressBlockSize, id);
            && blocks + ReadFrom(data, pos, compressBlockSize, id)
               == (blocks + [b]) + ReadFrom(data, next, compressBlockSize, Inc16(id))
            && |blocks + [b]| == |blocks| + 1
  {
    var (b, next) := NextBlock(data, pos, compressBlockSize, id);
    var later := ReadFrom(data, next, compressBlockSize, Inc16(id));
    assert ReadFrom(data, pos, compressBlockSize, id) == [b] + later;
    assert blocks + ([b] + later) == (blocks + [b]) + later;
  }

  lemma {:induction false} BumpMod(x: ushort, k: nat)
    ensures Bump(x, k) == (x + k) % USHORT_LIMIT
  {
    if k == 0 {
      DivModUnique(x as int, USHORT_LIMIT, 0, x as int);
    } else {
      BumpMod(x, k - 1);
      Inc16Mod(x, k - 1, Bump(x, k - 1));
    }
  }

  /** Incrementing a counter that is `k` steps past `start` makes it `k + 1`
      steps past, modulo 65536. */
  lemma Inc16Mod(start: ushort, k: nat, id: ushort)
    requires id == (start + k) % USHORT_LIMIT
    ensures Inc16(id) == (start + k + 1) % USHORT_LIMIT
  {
    var q := (start + k) / USHORT_LIMIT;
    assert start + k == USHORT_LIMIT * q + id;
    if id < 0xFFFF {
      DivModUnique(start + k + 1, USHORT_LIMIT, q, id + 1);
    } else {
      DivModUnique(start + k + 1, USHORT_LIMIT, q + 1, 0);
    }
  }

  /** In compress mode the blocks partition the rest of the stream: their
      bytes laid end to end are exactly `data[pos..]`, every block but the
      last is full and the last holds between 1 and `compressBlockSize` bytes. */
  lemma {:induction false} ChunksPartition(data: seq<byte>, pos: nat, compressBlockSize: nat, id: ushort)
    requires IsCompress(compressBlockSize) && pos <= |data|
    ensures var bs := ReadFrom(data, pos, compressBlockSize, id);
            && Concat(Payloads(bs)) == data[pos..]
            && (forall k | 0 <= k < |bs| - 1 :: |bs[k].bytes| == compressBlockSize)
            && (|bs| > 0 ==> 1 <= |bs[|bs| - 1].bytes| <= compressBlockSize)
    decreases |data| - pos
  {
    var bs := ReadFrom(data, pos, compressBlockSize, id);
    if pos < |data| {
      var (b, next) := NextBlock(data, pos, compressBlockSize, id);
      var rest := ReadFrom(data, next, compressBlockSize, Inc16(id));
      ChunksPartition(data, next, compressBlockSize, Inc16(id));
      assert bs == [b] + rest;
      assert Payloads(bs) == [b.bytes] + Payloads(rest);
      assert Payloads(bs)[1..] == Payloads(rest);
      assert data[pos..] == data[pos..next] + data[next..];
      if |rest| > 0 {
        assert next < |data|;
        assert |b.bytes| == compressBlockSize;
        assert forall k | 1 <= k < |bs| :: bs[k] == rest[k - 1];
      }
    }
  }

  lemma DivStep(n: nat, d: nat)
    requires d > 0 && n > d
    ensures CeilDiv(n, d) == CeilDiv(n - d, d) + 1
  {
    var q := (n - d + d - 1) / d;
    var r := (n - d + d - 1) % d;
    assert n + d - 1 == d * (q + 1) + r;
    DivModUnique(n + d - 1, d, q + 1, r);
  }

  /** In compress mode the loop produces ceil(remaining / blockSize) blocks. */
  lemma {:induction false} ChunkCount(data: seq<byte>, pos: nat, compressBlockSize: nat, id: ushort)
    requires IsCompress(compressBlockSize) && pos <= |data|
    ensures |ReadFrom(data, pos, compressBlockSize, id)| == CeilDiv(|data| - pos, compressBlockSize)
    decreases |data| - pos
  {
    var n := |data| - pos;
    if pos < |data| {
      var (b, next) := NextBlock(data, pos, compressBlockSize, id);
      ChunkCount(data, next, compressBlockSize, Inc16(id));
      if n <= compressBlockSize {
        DivModUnique(n + compressBlockSize - 1, compressBlockSize, 1, n - 1);
      } else {
        DivStep(n, compressBlockSize);
      }
    } else {
      DivModUnique(compressBlockSize - 1, compressBlockSize, 0, compressBlockSize - 1);
    }
  }

  /** In decompress mode the loop undoes the compress-mode framing: reading
      framed payloads, each shorter than 2^24 bytes, gives the payloads back
      in order. */
  lemma {:induction false} FramesParse(pre: seq<byte>, ps: seq<seq<byte>>, id: ushort)
    requires forall k | 0 <= k < |ps| :: |ps[k]| < SIZE_LIMIT
    ensures Payloads(ReadFrom(pre + Frames(ps, true), |pre|, 0, id)) == ps
    decreases |ps|
  {
    var s := pre + Frames(ps, true);
    if |ps| > 0 {
      var p := ps[0];
      var size := WriteBlockSizeAsWritten(|p|);
      var tail := Frames(ps[1..], true);
      var pre' := pre + size + p;
      assert Frames(ps, true) == (size + p) + tail;
      SplitFrame(pre, size, p, tail);
      ParseOne(pre, p, tail, id);
      FramesParse(pre', ps[1..], Inc16(id));
      var rest := ReadFrom(s, |pre'|, 0, Inc16(id));
      assert ReadFrom(s, |pre|, 0, id) == [Block(id, p)] + rest;
      PayloadsCons(Block(id, p), rest);
      assert ps == [p] + ps[1..];
    } else {
      assert s == pre;
    }
  }

  lemma SplitFrame(pre: seq<byte>, size: seq<byte>, p: seq<byte>, tail: seq<byte>)
    ensures pre + ((size + p) + tail) == ((pre + size) + p) + tail
  {
  }

  /** The decompress-mode reader takes one framed payload back out. */
  lemma ParseOne(pre: seq<byte>, p: seq<byte>, tail: seq<byte>, id: ushort)
    requires |p| < SIZE_LIMIT
    ensures var pre' := pre + WriteBlockSizeAsWritten(|p|) + p;
            NextBlock(pre' + tail, |pre|, 0, id) == (Block(id, p), |pre'|)
  {
    var size := WriteBlockSizeAsWritten(|p|);
    var s := pre + size + p + tail;
    assert s == pre + size + (p + tail);
    SizeRoundTrip(pre, |p|, p + tail);
    assert s[|pre| + SIZE_LENGTH..|pre| + SIZE_LENGTH + |p|] == p;
  }

  /** Without length prefixes the framing is plain concatenation. */
  lemma {:induction false} UnframedIsConcat(ps: seq<seq<byte>>)
    ensures Frames(ps, false) == Concat(ps)
  {
    if |ps| > 0 {
      UnframedIsConcat(ps[1..]);
    }
  }
}

=== FILE: output.dfy ===
/** The writer of Output.cs: a reorder buffer that finished blocks enter in
    any order, and a drain loop that writes only the block whose number is
    the next expected one. */
module Output {
  import opened Wrappers
  import opened Bytes
  import opened Blocks
  import opened Format

  /** `OrderId` is the number of the next block to write; `out` is what the
      destination stream holds; `started` is the re-entrancy flag. */
  datatype WriterState = WriterState(orderId: ushort, out: seq<byte>, started: bool)

  /** `AddBlock`: the block goes at the end; existing entries are untouched. */
  function AddBlock(buffer: seq<Block>, b: Block): (r: seq<Block>)
    ensures |r| == |buffer| + 1
    ensures r[..|buffer|] == buffer && r[|buffer|] == b
  {
    buffer + [b]
  }

  /** The index of the first buffered block numbered `n`, scanning from `from`. */
  function FindBlock(buffer: seq<Block>, n: ushort, from: nat): (r: Option<nat>)
    requires from <= |buffer|
    ensures r.Some? ==>
              && from <= r.value < |buffer| && buffer[r.value].number == n
              && forall j | from <= j < r.value :: buffer[j].number != n
    ensures r.None? ==> forall j | from <= j < |buffer| :: buffer[j].number != n
    decreases |buffer| - from
  {
    if from == |buffer| then None
    else if buffer[from].number == n then Some(from)
    else FindBlock(buffer, n, from + 1)
  }

  /** `GetBlock`: removes and returns the first block numbered `n`; with no
      such block, returns nothing and the buffer stays as it is. */
  function GetBlock(buffer: seq<Block>, n: ushort): (r: Option<(Block, seq<Block>)>)
    ensures r.None? <==> forall j | 0 <= j < |buffer| :: buffer[j].number != n
    ensures r.Some? ==>
              var i := FindBlock(buffer, n, 0).value;
              && r.value.0 == buffer[i] && r.value.0.number == n
              && r.value.1 == buffer[..i] + buffer[i + 1..]
    ensures r.Some? ==> multiset(r.value.1) + multiset{r.value.0} == multiset(buffer)
  {
    match FindBlock(buffer, n, 0)
    case None => None
    case Some(i) =>
      assert buffer == buffer[..i] + [buffer[i]] + buffer[i + 1..];
      Some((buffer[i], buffer[..i] + buffer[i + 1..]))
  }

  /** `WriteBlock` as written: in compress mode the three-byte length prefix
      (truncated for lengths of 2^24 or more), then the bytes; `OrderId`
      moves on by one. */
  function WriteBlockAsWritten(ws: WriterState, compress: bool, b: Block): (ws': WriterState)
    ensures ws'.orderId == Inc16(ws.orderId) && ws'.started == ws.started
    ensures ws'.out == ws.out + Frame(b.bytes, compress)
  {
    ws.(out := ws.out + Frame(b.bytes, compress), orderId := Inc16(ws.orderId))
  }

  /** `WriteBlock` with the length ceiling enforced: a compressed block that
      its prefix cannot describe is a fault (`None`) rather than a corrupt
      archive. */
  function WriteBlock(ws: WriterState, compress: bool, b: Block): (r: Option<WriterState>)
    ensures r.None? <==> compress && |b.bytes| >= SIZE_LIMIT
    ensures r.Some? ==>
              && r.value.orderId == Inc16(ws.orderId)
              && ws.out <= r.value.out
              && (compress ==> r.value.out[|ws.out|..] == WriteBlockSize(|b.bytes|).value + b.bytes)
              && (!compress ==> r.value.out[|ws.out|..] == b.bytes)
  {
    if compress && |b.bytes| >= SIZE_LIMIT then None
    else
      var ws' := WriteBlockAsWritten(ws, compress, b);
      assert ws'.out[|ws.out|..] == Frame(b.bytes, compress);
      Some(ws')
  }

  datatype WriterOutcome = WriterOutcome(writer: WriterState, buffer: seq<Block>)

  /** The writer has nothing to do: every block is written, or the next one
      has not arrived. */
  predicate Idle(ws: WriterState, buffer: seq<Block>, blocksCount: ushort) {
    ws.orderId == blocksCount || GetBlock(buffer, ws.orderId).None?
  }

  /** One pass of the `Write` loop: nothing once `OrderId` reaches the block
      count, nothing while the next block is missing (never skip ahead), and
      otherwise exactly the block numbered `OrderId` is removed and written,
      whatever its length. */
  function WriterStep(ws: WriterState, buffer: seq<Block>, blocksCount: ushort, compress: bool)
    : (r: WriterOutcome)
    ensures Idle(ws, buffer, blocksCount) ==> r == WriterOutcome(ws, buffer)
    ensures !Idle(ws, buffer, blocksCount) ==>
              && var (b, rest) := GetBlock(buffer, ws.orderId).value;
              && b.number == ws.orderId
              && r.buffer == rest && |r.buffer| < |buffer|
              && r.writer == WriteBlockAsWritten(ws, compress, b)
    ensures r.writer == ws <==> Idle(ws, buffer, blocksCount)
  {
    if ws.orderId == blocksCount then WriterOutcome(ws, buffer)
    else match GetBlock(buffer, ws.orderId)
      case None => WriterOutcome(ws, buffer)
      case Some((b, rest)) =>
        assert |rest| < |buffer| by {
          assert multiset(rest) + multiset{b} == multiset(buffer);
        }
        WriterOutcome(WriteBlockAsWritten(ws, compress, b), rest)
  }

  /** What a run of the `Write` loop leaves: the writer, the buffer, and
      the blocks it wrote, in the order it wrote them. */
  datatype DrainOutcome = DrainOutcome(writer: WriterState, buffer: seq<Block>, written: seq<Block>)

  /** The `Write` loop run until it would have to wait: it stops exactly
      when the count is reached or the next block is missing. The blocks it
      wrote came out of the buffer, carry the consecutive numbers from
      `OrderId` on, and the destination grew by exactly their frames. */
  function Drain(ws: WriterState, buffer: seq<Block>, blocksCount: ushort, compress: bool)
    : (r: DrainOutcome)
    ensures Idle(r.writer, r.buffer, blocksCount)
    ensures multiset(buffer) == multiset(r.buffer) + multiset(r.written)
    ensures forall k | 0 <= k < |r.written| :: r.written[k].number == Bump(ws.orderId, k)
    ensures r.writer.orderId == Bump(ws.orderId, |r.written|) && r.writer.started == ws.started
    ensures r.writer.out == ws.out + Frames(Payloads(r.written), compress)
    ensures Idle(ws, buffer, blocksCount) ==> r == DrainOutcome(ws, buffer, [])
    decreases |buffer|
  {
    var step := WriterStep(ws, buffer, blocksCount, compress);
    if step.writer == ws then
      assert ws.out + [] == ws.out;
      DrainOutcome(ws, buffer, [])
    else
      var (b, rest) := GetBlock(buffer, ws.orderId).value;
      var r := Drain(step.writer, step.buffer, blocksCount, compress);
      DrainExtends(ws, b, rest, r, compress);
      r.(written := [b] + r.written)
  }

  /** One written block in front of the rest of a drain. */
  lemma DrainExtends(ws: WriterState, b: Block, rest: seq<Block>, r: DrainOutcome, compress: bool)
    requires b.number == ws.orderId
    requires multiset(rest) == multiset(r.buffer) + multiset(r.written)
    requires forall k | 0 <= k < |r.written| :: r.written[k].number == Bump(Inc16(ws.orderId), k)
    requires r.writer.orderId == Bump(Inc16(ws.orderId), |r.written|)
    requires r.writer.out == (ws.out + Frame(b.bytes, compress)) + Frames(Payloads(r.written), compress)
    ensures multiset(rest) + multiset{b} == multiset(r.buffer) + multiset([b] + r.written)
    ensures forall k | 0 <= k < |[b] + r.written| :: ([b] + r.written)[k].number == Bump(ws.orderId, k)
    ensures r.writer.orderId == Bump(ws.orderId, |[b] + r.written|)
    ensures r.writer.out == ws.out + Frames(Payloads([b] + r.written), compress)
  {
    var w := [b] + r.written;
    assert multiset(rest) + multiset{b} == multiset(r.buffer) + multiset(w) by {
      WrittenMultiset(b, r.buffer, r.written);
    }
    assert forall k | 0 <= k < |w| :: w[k].number == Bump(ws.orderId, k) by {
      WrittenNumbers(ws.orderId, b, r.written);
    }
    assert r.writer.orderId == Bump(ws.orderId, |w|) by {
      BumpShift(ws.orderId, |r.written|);
    }
    assert r.writer.out == ws.out + Frames(Payloads(w), compress) by {
      WrittenFrames(ws.out, b, r.written, compress);
    }
  }

  lemma WrittenMultiset(b: Block, rb: seq<Block>, rw: seq<Block>)
    ensures multiset(rb) + multiset([b] + rw) == (multiset(rb) + multiset(rw)) + multiset{b}
  {
    assert multiset([b] + rw) == multiset{b} + multiset(rw);
  }

  /** A block numbered `x` in front of blocks numbered on from `x + 1`. */
  lemma WrittenNumbers(x: ushort, b: Block, w: seq<Block>)
    requires b.number == x
    requires forall k | 0 <= k < |w| :: w[k].number == Bump(Inc16(x), k)
    ensures forall k | 0 <= k < |[b] + w| :: ([b] + w)[k].number == Bump(x, k)
  {
    forall k | 0 <= k < |[b] + w| ensures ([b] + w)[k].number == Bump(x, k) {
      if k > 0 {
        BumpShift(x, k - 1);
      }
    }
  }

  lemma WrittenFrames(out: seq<byte>, b: Block, w: seq<Block>, compress: bool)
    ensures (out + Frame(b.bytes, compress)) + Frames(Payloads(w), compress)
            == out + Frames(Payloads([b] + w), compress)
  {
    PayloadsCons(b, w);
    var ps := Payloads([b] + w);
    assert ps[1..] == Payloads(w);
  }

  /** `Write`: a second call while one is running returns without writing.
      Otherwise the drain loop runs; the result is the state in which it
      finishes, with the flag cleared, or in which it sleeps waiting for the
      next block, with the flag still set. */
  function Write(ws: WriterState, buffer: seq<Block>, blocksCount: ushort, compress: bool)
    : (r: DrainOutcome)
    ensures ws.started ==> r == DrainOutcome(ws, buffer, [])
    ensures !ws.started ==>
              && ws.out <= r.writer.out
              && Idle(r.writer, r.buffer, blocksCount)
              && (r.writer.started <==> r.writer.orderId != blocksCount)
              && multiset(buffer) == multiset(r.buffer) + multiset(r.written)
              && (forall k | 0 <= k < |r.written| :: r.written[k].number == Bump(ws.orderId, k))
              && r.writer.orderId == Bump(ws.orderId, |r.written|)
              && r.writer.out == ws.out + Frames(Payloads(r.written), compress)
  {
    if ws.started then DrainOutcome(ws, buffer, [])
    else
      var r := Drain(ws.(started := true), buffer, blocksCount, compress);
      r.(writer := r.writer.(started := r.writer.orderId != blocksCount))
  }

  /** The one block numbered `n` among the numbered blocks in any order. */
  lemma FoundIsExpected(buffer: seq<Block>, ps: seq<seq<byte>>, k: nat)
    requires |ps| < USHORT_LIMIT && k < |ps|
    requires multiset(buffer) == multiset(Numbered(ps, k))
    ensures GetBlock(buffer, k).Some? && GetBlock(buffer, k).value.0 == Block(k, ps[k])
  {
    var all := Numbered(ps, k);
    assert all[0] == Block(k, ps[k]);
    assert Block(k, ps[k]) in multiset(buffer);
    var j :| 0 <= j < |buffer| && buffer[j] == Block(k, ps[k]);
    var i := FindBlock(buffer, k, 0).value;
    assert buffer[i] in multiset(all);
    var m :| 0 <= m < |all| && all[m] == buffer[i];
  }

  lemma RemoveExpected(buffer: seq<Block>, rest: seq<Block>, ps: seq<seq<byte>>, k: nat)
    requires |ps| < USHORT_LIMIT && k < |ps|
    requires multiset(buffer) == multiset(Numbered(ps, k))
    requires multiset(rest) + multiset{Block(k, ps[k])} == multiset(buffer)
    ensures multiset(rest) == multiset(Numbered(ps, k + 1))
  {
    var b := Block(k, ps[k]);
    NumberedHead(ps, k);
    assert multiset(Numbered(ps, k)) == multiset{b} + multiset(Numbered(ps, k + 1));
    assert multiset(rest) == multiset(buffer) - multiset{b} by {
      assert (multiset(rest) + multiset{b}) - multiset{b} == multiset(rest);
    }
  }

  /** The drain's first pass when the expected block is present. */
  lemma WritesExpected(ws: WriterState, buffer: seq<Block>, ps: seq<seq<byte>>, compress: bool)
    requires |ps| < USHORT_LIMIT && ws.orderId < |ps|
    requires multiset(buffer) == multiset(Numbered(ps, ws.orderId))
    ensures var step := WriterStep(ws, buffer, |ps|, compress);
            && var (d, d') := (Drain(ws, buffer, |ps|, compress), Drain(step.writer, step.buffer, |ps|, compress));
            && d.writer == d'.writer && d.buffer == d'.buffer
            && step.writer.orderId == ws.orderId + 1 && step.writer.started == ws.started
            && step.writer.out == ws.out + Frame(ps[ws.orderId], compress)
            && multiset(step.buffer) == multiset(Numbered(ps, ws.orderId + 1))
  {
    var k := ws.orderId;
    FoundIsExpected(buffer, ps, k);
    var (b, rest) := GetBlock(buffer, k).value;
    RemoveExpected(buffer, rest, ps, k);
    var step := WriterStep(ws, buffer, |ps|, compress);
    assert step.writer != ws;
  }

  lemma AppendAssoc(a: seq<byte>, b: seq<byte>, c: seq<byte>)
    ensures (a + b) + c == a + (b + c)
  {
  }

  lemma FramesFrom(ps: seq<seq<byte>>, k: nat, compress: bool)
    requires k < |ps|
    ensures Frames(ps[k..], compress) == Frame(ps[k], compress) + Frames(ps[k + 1..], compress)
  {
    assert ps[k..][1..] == ps[k + 1..];
  }

  /** The key property of the writer: whatever order the numbered blocks
      entered the buffer in, the drain writes them in ascending number order,
      each framed, and empties the buffer. */
  lemma {:induction false} DrainInOrder(ws: WriterState, buffer: seq<Block>, ps: seq<seq<byte>>, compress: bool)
    requires |ps| < USHORT_LIMIT && ws.orderId <= |ps|
    requires multiset(buffer) == multiset(Numbered(ps, ws.orderId))
    ensures var r := Drain(ws, buffer, |ps|, compress);
            && r.buffer == []
            && r.writer.orderId == |ps| && r.writer.started == ws.started
            && r.writer.out == ws.out + Frames(ps[ws.orderId..], compress)
    decreases |ps| - ws.orderId
  {
    var k := ws.orderId;
    if k == |ps| {
      assert ps[k..] == [];
      assert multiset(buffer) == multiset{};
      assert |buffer| == |multiset(buffer)| == 0;
      assert WriterStep(ws, buffer, |ps|, compress) == WriterOutcome(ws, buffer);
    } else {
      var step := WriterStep(ws, buffer, |ps|, compress);
      var r := Drain(step.writer, step.buffer, |ps|, compress);
      assert Drain(ws, buffer, |ps|, compress).writer == r.writer
          && Drain(ws, buffer, |ps|, compress).buffer == r.buffer by {
        WritesExpected(ws, buffer, ps, compress);
      }
      assert && r.buffer == []
             && r.writer.orderId == |ps| && r.writer.started == ws.started
             && r.writer.out == ws.out + Frames(ps[k..], compress) by {
        WritesExpected(ws, buffer, ps, compress);
        DrainInOrder(step.writer, step.buffer, ps, compress);
        FramesFrom(ps, k, compress);
        AppendAssoc(ws.out, Frame(ps[k], compress), Frames(ps[k + 1..], compress));
      }
    }
  }

  /** When the next block has not arrived, the writer writes nothing and
      moves no counter, whatever else the buffer holds. */
  lemma NoSkipAhead(ws: WriterState, buffer: seq<Block>, blocksCount: ushort, compress: bool)
    requires forall j | 0 <= j < |buffer| :: buffer[j].number != ws.orderId
    ensures Drain(ws, buffer, blocksCount, compress) == DrainOutcome(ws, buffer, [])
  {
  }
}

=== FILE: pipeline.dfy ===
/** The whole compress or decompress run as a state machine. Each thread of
    the program (reader, pool manager, each worker, writer) contributes
    atomic steps over one shared state, and a run is any interleaving of
    them. The invariant below holds after every step of every interleaving;
    from it follow in-order output, the pool bounds and the archive round
    trip. */
module Pipeline {
  import opened Wrappers
  import opened Bytes
  import opened Blocks
  import opened Format
  import opened Input
  import opened WorkQueue
  import opened Compresser
  import opened ThreadManager
  import opened Output
  import GZiper

  /** What is fixed for a run: the input bytes, the reader's block size (2^20
      to compress, 0 to decompress), where the reader starts, the block
      count, the processor count and the codec. */
  datatype Config = Config(
    data: seq<byte>, compressBlockSize: nat, start: nat,
    blocksCount: ushort, maxThreads: nat, codec: Codec)

  predicate Compressing(cfg: Config) {
    IsCompress(cfg.compressBlockSize)
  }

  /** `Compress`: blocks of 2^20 bytes from position 0, and the count the
      (corrected) validation computed. */
  function CompressConfig(data: seq<byte>, enc: Codec, maxThreads: nat): (cfg: Config)
    requires CeilDiv(|data|, MEGA) <= 0xFFFF
    ensures Compressing(cfg)
  {
    Config(data, MEGA, 0, GZiper.BlocksCount(|data|), maxThreads, enc)
  }

  /** `Decompress`: the count is read from the header, which leaves the
      stream just after it, where the reader starts. */
  function DecompressConfig(archive: seq<byte>, dec: Codec, maxThreads: nat): (cfg: Config)
    ensures !Compressing(cfg)
  {
    Config(archive, 0, HEADER_LENGTH, ReadBlocksCount(archive), maxThreads, dec)
  }

  /** Every block the reader will produce in this run. */
  function AllBlocks(cfg: Config): seq<Block> {
    ReadFrom(cfg.data, cfg.start, cfg.compressBlockSize, 0)
  }

  /** A run the model's guarantees are about: the block count agrees with the
      blocks the input holds, and the host has a processor. */
  predicate WellFormed(cfg: Config) {
    |AllBlocks(cfg)| == cfg.blocksCount && cfg.maxThreads >= 1
  }

  /** The transformed bytes of each block (empty where the codec fails). */
  function Expected(cfg: Config): (ps: seq<seq<byte>>)
    ensures |ps| == |AllBlocks(cfg)|
  {
    var bs := AllBlocks(cfg);
    seq(|bs|, i requires 0 <= i < |bs| => ValueOr(cfg.codec(bs[i].bytes), []))
  }

  /** The codec accepts block `i`. */
  predicate Succeeds(cfg: Config, i: nat)
    requires i < |AllBlocks(cfg)|
  {
    cfg.codec(AllBlocks(cfg)[i].bytes).Some?
  }

  /** What the destination holds before the first block: the header when
      compressing, nothing when decompressing. */
  function Prefix(cfg: Config): seq<byte> {
    if Compressing(cfg) then Header(cfg.blocksCount) else []
  }

  /** The destination file of a run in which every block succeeds. */
  function FinalOutput(cfg: Config): seq<byte> {
    Prefix(cfg) + Frames(Expected(cfg), Compressing(cfg))
  }

  /** The shared state: reader, work queue with its checkpoint, pool, reorder
      buffer, writer and the cancellation flag. */
  datatype State = State(
    reader: ReaderState, queue: WorkQueue, pool: Pool,
    buffer: seq<Block>, writer: WriterState, cancelled: bool)

  /** One atomic step of one thread; the monitor readings are inputs. */
  datatype Action = Read(ram: int) | Manage(cpu: int) | Work(worker: nat) | WriteNext

  /** The state once the reader, manager and writer threads have started; in
      compress mode the header is already in the destination. */
  function Init(cfg: Config): (s: State)
    ensures s.writer.out == Prefix(cfg) && !s.cancelled
  {
    var (pool, queue) := ThreadManager.Start(WorkQueue([], 0), cfg.maxThreads);
    State(ReaderState(cfg.start, 0, true), queue, pool, [], WriterState(0, Prefix(cfg), true), false)
  }

  function Step(cfg: Config, s: State, a: Action): (s': State)
    // a cancelled run is over: Environment.Exit has ended every thread
    ensures s.cancelled ==> s' == s
    // each thread touches only what it owns or shares
    ensures a.Read? ==> s' == s.(reader := s'.reader, queue := s'.queue)
    ensures a.Manage? ==> s' == s.(pool := s'.pool)
    ensures a.Work? ==> s'.reader == s.reader && s'.writer == s.writer
    ensures a.WriteNext? ==> s' == s.(writer := s'.writer, buffer := s'.buffer)
    // only a worker's codec fault cancels
    ensures s'.cancelled && !s.cancelled ==>
              && a.Work? && a.worker < |s.pool.workers|
              && var w := s.pool.workers[a.worker];
              && !w.done && w.inFlight.Some? && cfg.codec(w.inFlight.value.bytes).None?
  {
    if s.cancelled then s
    else match a
      case Read(ram) =>
        var (rs, b) := ReadStep(s.reader, cfg.data, cfg.compressBlockSize, ram, |s.queue.items|);
        if b.Some? then s.(reader := rs, queue := Enqueue(s.queue, b.value)) else s
      case Manage(cpu) =>
        if StackValid(s.pool) then s.(pool := Tick(s.pool, s.queue, cfg.blocksCount, cpu)) else s
      case Work(i) =>
        if i >= |s.pool.workers| then s
        else
          var o := Compresser.Step(s.pool.workers[i], s.queue, s.buffer, cfg.blocksCount, cfg.codec);
          s.(pool := s.pool.(workers := s.pool.workers[i := o.worker]),
             queue := o.queue, buffer := o.buffer, cancelled := o.failed)
      case WriteNext =>
        var o := WriterStep(s.writer, s.buffer, cfg.blocksCount, Compressing(cfg));
        s.(writer := o.writer, buffer := o.buffer)
  }

  /** Any interleaving of steps. */
  function Run(cfg: Config, s: State, actions: seq<Action>): State
    decreases |actions|
  {
    if |actions| == 0 then s else Run(cfg, Step(cfg, s, actions[0]), actions[1..])
  }

  // ---- multisets of block numbers ----

  function Num(o: Option<Block>): multiset<int> {
    if o.Some? then multiset{o.value.number} else multiset{}
  }

  /** The numbers of the blocks the workers hold. */
  function InFlight(ws: seq<Worker>): multiset<int> {
    if |ws| == 0 then multiset{} else Num(ws[0].inFlight) + InFlight(ws[1..])
  }

  function NumbersOf(bs: seq<Block>): multiset<int> {
    if |bs| == 0 then multiset{} else multiset{bs[0].number as int} + NumbersOf(bs[1..])
  }

  /** lo, lo + 1, ..., hi - 1, once each. */
  function Range(lo: int, hi: int): multiset<int>
    decreases hi - lo
  {
    if lo >= hi then multiset{} else multiset{lo} + Range(lo + 1, hi)
  }

  // ---- the invariant ----

  /** The reader's counter and position agree: what it will still read is
      exactly the tail of the run's blocks from its counter on. */
  predicate ReaderInv(cfg: Config, rs: ReaderState) {
    var bs := AllBlocks(cfg);
    && rs.orderId <= |bs|
    && ReadFrom(cfg.data, rs.pos, cfg.compressBlockSize, rs.orderId) == bs[rs.orderId..]
  }

  /** The queue holds exactly the blocks of `bs` read (`r` of them) but not
      yet taken, in order. */
  predicate QueueInv(bs: seq<Block>, q: WorkQueue, r: nat) {
    && q.orderId <= r <= |bs|
    && q.items == bs[q.orderId..r]
  }

  /** Every block taken (`q` of them) and not yet written (`w` of them) is
      either held by exactly one worker, untransformed, or in the buffer
      exactly once, transformed by `codec`. */
  predicate TransitInv(bs: seq<Block>, codec: Codec, ws: seq<Worker>, buffer: seq<Block>, w: nat, q: nat) {
    && w <= q
    && InFlight(ws) + NumbersOf(buffer) == Range(w, q)
    && HeldAreOriginal(bs, ws)
    && BufferedAreTransformed(bs, codec, buffer)
  }

  predicate HeldAreOriginal(bs: seq<Block>, ws: seq<Worker>) {
    forall i | 0 <= i < |ws| && ws[i].inFlight.Some? ::
      ws[i].inFlight.value.number < |bs| && ws[i].inFlight.value == bs[ws[i].inFlight.value.number]
  }

  predicate BufferedAreTransformed(bs: seq<Block>, codec: Codec, buffer: seq<Block>) {
    forall j | 0 <= j < |buffer| ::
      buffer[j].number < |bs| && codec(bs[buffer[j].number].bytes) == Some(buffer[j].bytes)
  }

  /** The destination holds the prefix and then the first `OrderId`
      transformed blocks, framed, in ascending order. */
  predicate WriterInv(cfg: Config, ws: WriterState) {
    && ws.orderId <= |AllBlocks(cfg)|
    && (forall i | 0 <= i < ws.orderId :: Succeeds(cfg, i))
    && ws.out == Prefix(cfg) + Frames(Expected(cfg)[..ws.orderId], Compressing(cfg))
  }

  predicate Inv(cfg: Config, s: State) {
    && WellFormed(cfg)
    && ReaderInv(cfg, s.reader)
    && QueueInv(AllBlocks(cfg), s.queue, s.reader.orderId)
    && TransitInv(AllBlocks(cfg), cfg.codec, s.pool.workers, s.buffer, s.writer.orderId, s.queue.orderId)
    && WriterInv(cfg, s.writer)
    && PoolInv(s.pool)
  }

  // ---- helper facts ----

  /** Block `k` of a well-formed run is numbered `k`: no counter wraps. */
  lemma AllBlocksNumbered(cfg: Config, k: nat)
    requires WellFormed(cfg) && k < |AllBlocks(cfg)|
    ensures AllBlocks(cfg)[k].number == k
  {
    ReadFromNumbered(cfg.data, cfg.start, cfg.compressBlockSize, 0, k);
    DivModUnique(k, USHORT_LIMIT, 0, k);
  }

  lemma {:induction false} InFlightAppend(ws: seq<Worker>, w: Worker)
    ensures InFlight(ws + [w]) == InFlight(ws) + Num(w.inFlight)
  {
    if |ws| == 0 {
      assert ws + [w] == [w];
    } else {
      assert (ws + [w])[1..] == ws[1..] + [w];
      InFlightAppend(ws[1..], w);
    }
  }

  lemma {:induction false} InFlightUpdate(ws: seq<Worker>, i: nat, w: Worker)
    requires i < |ws|
    ensures InFlight(ws[i := w]) + Num(ws[i].inFlight) == InFlight(ws) + Num(w.inFlight)
  {
    var ws' := ws[i := w];
    var x, y := Num(ws[i].inFlight), Num(w.inFlight);
    if i > 0 {
      assert ws'[1..] == ws[1..][i - 1 := w];
      InFlightUpdate(ws[1..], i - 1, w);
      UnionShift(Num(ws[0].inFlight), InFlight(ws'[1..]), InFlight(ws[1..]), x, y);
    } else {
      assert ws'[1..] == ws[1..];
      UnionSwap(y, InFlight(ws[1..]), x);
    }
  }

  // ---- multiset algebra on opaque operands, kept apart from sequences ----

  lemma UnionShift(a: multiset<int>, r: multiset<int>, t: multiset<int>, x: multiset<int>, y: multiset<int>)
    requires r + x == t + y
    ensures (a + r) + x == (a + t) + y
  {
    forall v ensures ((a + r) + x)[v] == ((a + t) + y)[v] {
      assert (r + x)[v] == (t + y)[v];
    }
  }

  lemma UnionSwap(y: multiset<int>, t: multiset<int>, x: multiset<int>)
    ensures (y + t) + x == (x + t) + y
  {
  }

  /** A block taken from the queue joins the held ones: the held and
      buffered numbers now cover `[w, n + 1)`. */
  lemma AddToRange(h: multiset<int>, h': multiset<int>, nb: multiset<int>, w: int, n: int)
    requires w <= n && h' + multiset{} == h + multiset{n} && h + nb == Range(w, n)
    ensures h' + nb == Range(w, n + 1)
  {
    RangeExtend(w, n);
    forall v ensures (h' + nb)[v] == Range(w, n + 1)[v] {
      assert (h' + multiset{})[v] == (h + multiset{n})[v];
      assert (h + nb)[v] == Range(w, n)[v];
    }
  }

  /** A block moved from a worker to the buffer keeps the cover. */
  lemma MoveToBuffer(h: multiset<int>, h': multiset<int>, nb: multiset<int>, n: multiset<int>, lo: int, hi: int)
    requires h' + n == h + multiset{} && h + nb == Range(lo, hi)
    ensures h' + (nb + n) == Range(lo, hi)
  {
    forall v ensures (h' + (nb + n))[v] == Range(lo, hi)[v] {
      assert (h' + n)[v] == (h + multiset{})[v];
      assert (h + nb)[v] == Range(lo, hi)[v];
    }
  }

  /** Workers whose held blocks agree hold the same numbers. */
  lemma {:induction false} InFlightSame(ws: seq<Worker>, ws': seq<Worker>)
    requires |ws| == |ws'|
    requires forall i | 0 <= i < |ws| :: ws'[i].inFlight == ws[i].inFlight
    ensures InFlight(ws') == InFlight(ws)
  {
    if |ws| > 0 {
      InFlightSame(ws[1..], ws'[1..]);
    }
  }

  /** Idle workers add nothing in flight. */
  lemma {:induction false} InFlightExtra(ws: seq<Worker>, extra: seq<Worker>)
    requires forall k | 0 <= k < |extra| :: extra[k].inFlight.None?
    ensures InFlight(ws + extra) == InFlight(ws)
    decreases |extra|
  {
    if |extra| == 0 {
      assert ws + extra == ws;
    } else {
      var last := extra[|extra| - 1];
      var init := extra[..|extra| - 1];
      assert ws + extra == (ws + init) + [last];
      assert Num(last.inFlight) == multiset{};
      InFlightAppend(ws + init, last);
      InFlightExtra(ws, init);
    }
  }

  lemma {:induction false} NumbersOfConcat(a: seq<Block>, b: seq<Block>)
    ensures NumbersOf(a + b) == NumbersOf(a) + NumbersOf(b)
  {
    if |a| == 0 {
      assert a + b == b;
    } else {
      assert (a + b)[1..] == a[1..] + b;
      NumbersOfConcat(a[1..], b);
    }
  }

  lemma {:induction false} RangeMembers(lo: int, hi: int, x: int)
    ensures x in Range(lo, hi) <==> lo <= x < hi
    decreases hi - lo
  {
    if lo < hi {
      RangeMembers(lo + 1, hi, x);
    }
  }

  lemma {:induction false} RangeExtend(lo: int, hi: int)
    requires lo <= hi
    ensures Range(lo, hi + 1) == Range(lo, hi) + multiset{hi}
    decreases hi - lo
  {
    if lo < hi {
      RangeExtend(lo + 1, hi);
    }
  }

  // ---- each step keeps the invariant ----

  /** The reader produces the next block of the run and the queue grows by it. */
  lemma ReadKeepsInv(cfg: Config, s: State, ram: int)
    requires Inv(cfg, s) && !s.cancelled
    ensures Inv(cfg, Step(cfg, s, Read(ram)))
  {
    var (rs, b) := ReadStep(s.reader, cfg.data, cfg.compressBlockSize, ram, |s.queue.items|);
    var s' := Step(cfg, s, Read(ram));
    if b.Some? {
      assert s' == s.(reader := rs, queue := Enqueue(s.queue, b.value));
      ReadProducesNext(cfg, s.reader, rs, b.value, s.queue);
    } else {
      assert s' == s;
    }
  }

  lemma ReadProducesNext(cfg: Config, rs: ReaderState, rs': ReaderState, b: Block, q: WorkQueue)
    requires WellFormed(cfg) && ReaderInv(cfg, rs) && QueueInv(AllBlocks(cfg), q, rs.orderId)
    requires ReadFrom(cfg.data, rs.pos, cfg.compressBlockSize, rs.orderId)
               == [b] + ReadFrom(cfg.data, rs'.pos, cfg.compressBlockSize, rs'.orderId)
    requires rs'.orderId == Inc16(rs.orderId)
    ensures ReaderInv(cfg, rs') && QueueInv(AllBlocks(cfg), Enqueue(q, b), rs'.orderId)
  {
    var bs := AllBlocks(cfg);
    var r := rs.orderId;
    assert r < |bs|;
    assert rs'.orderId == r + 1;
    assert bs[r..][0] == b;
    assert bs[r..][1..] == bs[r + 1..];
    assert q.items + [b] == bs[q.orderId..r + 1];
  }

  /** A manager tick only resizes the pool; no held block changes. */
  lemma ManageKeepsInv(cfg: Config, s: State, cpu: int)
    requires Inv(cfg, s) && !s.cancelled
    ensures Inv(cfg, Step(cfg, s, Manage(cpu)))
  {
    var p := s.pool;
    var p' := Tick(p, s.queue, cfg.blocksCount, cpu);
    TickKeepsInv(p, s.queue, cfg.blocksCount, cpu);
    var s' := Step(cfg, s, Manage(cpu));
    assert s' == s.(pool := p');
    TransitFrame(AllBlocks(cfg), cfg.codec, p.workers, p'.workers, s.buffer, s.writer.orderId, s.queue.orderId);
  }

  /** Replacing the workers by ones holding the same blocks, plus idle new
      ones, keeps the transit invariant. */
  lemma TransitFrame(bs: seq<Block>, codec: Codec, ws: seq<Worker>, ws': seq<Worker>, buffer: seq<Block>, w: nat, q: nat)
    requires TransitInv(bs, codec, ws, buffer, w, q)
    requires |ws| <= |ws'|
    requires forall i | 0 <= i < |ws'| :: ws'[i].inFlight == (if i < |ws| then ws[i].inFlight else None)
    ensures TransitInv(bs, codec, ws', buffer, w, q)
  {
    var n := |ws|;
    var extra := ws'[n..];
    assert ws'[..n] + extra == ws';
    InFlightSame(ws, ws'[..n]);
    InFlightExtra(ws'[..n], extra);
  }

  lemma TakeKeepsTransit(cfg: Config, ws: seq<Worker>, i: nat, q: WorkQueue, r: nat, buffer: seq<Block>, w: nat)
    requires WellFormed(cfg) && QueueInv(AllBlocks(cfg), q, r)
    requires TransitInv(AllBlocks(cfg), cfg.codec, ws, buffer, w, q.orderId)
    requires i < |ws| && ws[i].inFlight.None? && |q.items| > 0
    ensures var ws' := ws[i := ws[i].(inFlight := Some(q.items[0]))];
            var q' := Dequeue(q).1;
            QueueInv(AllBlocks(cfg), q', r) && TransitInv(AllBlocks(cfg), cfg.codec, ws', buffer, w, q'.orderId)
  {
    var bs := AllBlocks(cfg);
    var n := q.orderId;
    assert q.items[0] == bs[n];
    AllBlocksNumbered(cfg, n);
    assert |bs| < USHORT_LIMIT;
    TakeNext(bs, cfg.codec, ws, i, q, r, buffer, w);
  }

  lemma TakeNext(bs: seq<Block>, codec: Codec, ws: seq<Worker>, i: nat, q: WorkQueue, r: nat, buffer: seq<Block>, w: nat)
    requires |bs| < USHORT_LIMIT
    requires QueueInv(bs, q, r) && TransitInv(bs, codec, ws, buffer, w, q.orderId)
    requires i < |ws| && ws[i].inFlight.None? && |q.items| > 0
    requires bs[q.orderId].number == q.orderId
    ensures var ws' := ws[i := ws[i].(inFlight := Some(q.items[0]))];
            var q' := Dequeue(q).1;
            QueueInv(bs, q', r) && TransitInv(bs, codec, ws', buffer, w, q'.orderId)
  {
    var b := q.items[0];
    var ws' := ws[i := ws[i].(inFlight := Some(b))];
    var n := q.orderId;
    assert b == bs[n];
    assert Dequeue(q).1.orderId == n + 1;
    assert Dequeue(q).1.items == bs[n + 1..r];
    InFlightUpdate(ws, i, ws'[i]);
    assert Num(ws[i].inFlight) == multiset{};
    assert Num(ws'[i].inFlight) == multiset{n};
    AddToRange(InFlight(ws), InFlight(ws'), NumbersOf(buffer), w, n);
    UpdateKeepsHeld(bs, ws, i, ws'[i]);
  }

  lemma DepositKeepsTransit(bs: seq<Block>, codec: Codec, ws: seq<Worker>, i: nat, buffer: seq<Block>, out: seq<byte>, w: nat, q: nat)
    requires TransitInv(bs, codec, ws, buffer, w, q)
    requires i < |ws| && ws[i].inFlight.Some?
    requires codec(ws[i].inFlight.value.bytes) == Some(out)
    ensures TransitInv(bs, codec, ws[i := ws[i].(inFlight := None)],
                       buffer + [Block(ws[i].inFlight.value.number, out)], w, q)
  {
    var b := ws[i].inFlight.value;
    var nb := Block(b.number, out);
    var ws' := ws[i := ws[i].(inFlight := None)];
    var n := multiset{b.number as int};
    InFlightUpdate(ws, i, ws'[i]);
    assert Num(ws'[i].inFlight) == multiset{};
    assert Num(ws[i].inFlight) == n;
    NumbersOfConcat(buffer, [nb]);
    assert NumbersOf([nb]) == n;
    MoveToBuffer(InFlight(ws), InFlight(ws'), NumbersOf(buffer), n, w, q);
    UpdateKeepsHeld(bs, ws, i, ws'[i]);
    assert b.number < |bs| && b == bs[b.number];
    DepositKeepsBuffered(bs, codec, buffer, nb);
  }

  /** A worker that now holds nothing, or an original block, keeps the held
      blocks original. */
  lemma UpdateKeepsHeld(bs: seq<Block>, ws: seq<Worker>, i: nat, w: Worker)
    requires HeldAreOriginal(bs, ws) && i < |ws|
    requires w.inFlight.Some? ==> w.inFlight.value.number < |bs| && w.inFlight.value == bs[w.inFlight.value.number]
    ensures HeldAreOriginal(bs, ws[i := w])
  {
    var ws' := ws[i := w];
    assert forall k | 0 <= k < |ws'| :: ws'[k].inFlight == if k == i then w.inFlight else ws[k].inFlight;
  }

  lemma DepositKeepsBuffered(bs: seq<Block>, codec: Codec, buffer: seq<Block>, nb: Block)
    requires BufferedAreTransformed(bs, codec, buffer)
    requires nb.number < |bs| && codec(bs[nb.number].bytes) == Some(nb.bytes)
    ensures BufferedAreTransformed(bs, codec, buffer + [nb])
  {
    assert forall j | 0 <= j < |buffer + [nb]| :: (buffer + [nb])[j] == if j < |buffer| then buffer[j] else nb;
  }

  /** A worker step takes the next block, deposits its transformation,
      exits, waits, or fails (which cancels the run). */
  lemma WorkKeepsInv(cfg: Config, s: State, i: nat)
    requires Inv(cfg, s) && !s.cancelled
    ensures Inv(cfg, Step(cfg, s, Work(i)))
  {
    if i >= |s.pool.workers| {
      assert Step(cfg, s, Work(i)) == s;
    } else {
      var w := s.pool.workers[i];
      var idle := w.inFlight.None?;
      var continues := LoopContinues(w, s.queue.orderId, cfg.blocksCount);
      if w.done || (idle && continues && |s.queue.items| == 0) {
        WaitingWorkIsNoop(cfg, s, i);
      } else if idle && continues {
        TakeKeepsInv(cfg, s, i);
      } else if !idle && cfg.codec(w.inFlight.value.bytes).Some? {
        DepositKeepsInv(cfg, s, i);
      } else {
        FinishKeepsInv(cfg, s, i);
      }
    }
  }

  /** A done worker, or one waiting on an empty queue, changes nothing. */
  lemma WaitingWorkIsNoop(cfg: Config, s: State, i: nat)
    requires !s.cancelled && i < |s.pool.workers|
    requires var w := s.pool.workers[i];
             w.done || (w.inFlight.None? && LoopContinues(w, s.queue.orderId, cfg.blocksCount) && |s.queue.items| == 0)
    ensures Step(cfg, s, Work(i)) == s
  {
    assert s.pool.workers[i := s.pool.workers[i]] == s.pool.workers;
  }

  /** A worker taking the head of the queue. */
  lemma TakeKeepsInv(cfg: Config, s: State, i: nat)
    requires Inv(cfg, s) && !s.cancelled && i < |s.pool.workers|
    requires !s.pool.workers[i].done && s.pool.workers[i].inFlight.None? && |s.queue.items| > 0
    requires LoopContinues(s.pool.workers[i], s.queue.orderId, cfg.blocksCount)
    ensures Inv(cfg, Step(cfg, s, Work(i)))
  {
    var bs := AllBlocks(cfg);
    var ws := s.pool.workers;
    var ws' := ws[i := ws[i].(inFlight := Some(s.queue.items[0]))];
    var q' := Dequeue(s.queue).1;
    assert Step(cfg, s, Work(i)) == s.(pool := s.pool.(workers := ws'), queue := q');
    WorkerUpdateKeepsInv(s.pool, i, ws'[i]);
    TakeKeepsTransit(cfg, ws, i, s.queue, s.reader.orderId, s.buffer, s.writer.orderId);
  }

  /** A worker depositing the transformation of the block it holds. */
  lemma DepositKeepsInv(cfg: Config, s: State, i: nat)
    requires Inv(cfg, s) && !s.cancelled && i < |s.pool.workers|
    requires !s.pool.workers[i].done && s.pool.workers[i].inFlight.Some?
    requires cfg.codec(s.pool.workers[i].inFlight.value.bytes).Some?
    ensures Inv(cfg, Step(cfg, s, Work(i)))
  {
    var ws := s.pool.workers;
    var b := ws[i].inFlight.value;
    var out := cfg.codec(b.bytes).value;
    var ws' := ws[i := ws[i].(inFlight := None)];
    var buffer' := s.buffer + [Block(b.number, out)];
    assert Step(cfg, s, Work(i)) == s.(pool := s.pool.(workers := ws'), buffer := buffer');
    WorkerUpdateKeepsInv(s.pool, i, ws'[i]);
    DepositKeepsTransit(AllBlocks(cfg), cfg.codec, ws, i, s.buffer, out, s.writer.orderId, s.queue.orderId);
  }

  /** A worker setting Done: its loop ended, or the codec failed, which also
      cancels the run. */
  lemma FinishKeepsInv(cfg: Config, s: State, i: nat)
    requires Inv(cfg, s) && !s.cancelled && i < |s.pool.workers| && !s.pool.workers[i].done
    requires var w := s.pool.workers[i];
             if w.inFlight.None? then !LoopContinues(w, s.queue.orderId, cfg.blocksCount)
             else cfg.codec(w.inFlight.value.bytes).None?
    ensures Inv(cfg, Step(cfg, s, Work(i)))
  {
    var ws := s.pool.workers;
    var ws' := ws[i := ws[i].(done := true)];
    assert Step(cfg, s, Work(i)) == s.(pool := s.pool.(workers := ws'), cancelled := ws[i].inFlight.Some?);
    WorkerUpdateKeepsInv(s.pool, i, ws'[i]);
    SameHeldKeepsTransit(AllBlocks(cfg), cfg.codec, ws, i, ws'[i], s.buffer, s.writer.orderId, s.queue.orderId);
  }

  /** Updating a worker without changing the block it holds keeps the
      transit invariant. */
  lemma SameHeldKeepsTransit(bs: seq<Block>, codec: Codec, ws: seq<Worker>, i: nat, w: Worker,
                             buffer: seq<Block>, lo: nat, hi: nat)
    requires TransitInv(bs, codec, ws, buffer, lo, hi)
    requires i < |ws| && w.inFlight == ws[i].inFlight
    ensures TransitInv(bs, codec, ws[i := w], buffer, lo, hi)
  {
    InFlightSame(ws, ws[i := w]);
  }

  /** The writer takes block `OrderId` out of the buffer and appends its frame. */
  lemma WriteKeepsInv(cfg: Config, s: State)
    requires Inv(cfg, s) && !s.cancelled
    ensures Inv(cfg, Step(cfg, s, WriteNext))
  {
    var w := s.writer.orderId;
    var compress := Compressing(cfg);
    var s' := Step(cfg, s, WriteNext);
    if w == cfg.blocksCount || GetBlock(s.buffer, w).None? {
      assert s' == s;
    } else {
      var (b, rest) := GetBlock(s.buffer, w).value;
      var writer' := WriteBlockAsWritten(s.writer, compress, b);
      assert s' == s.(writer := writer', buffer := rest);
      var bs := AllBlocks(cfg);
      RemoveNext(bs, cfg.codec, s.pool.workers, s.buffer, w, s.queue.orderId, b, rest);
      assert w < |bs| < USHORT_LIMIT;
      assert writer'.orderId == w + 1;
      AppendNext(cfg, s.writer, b, writer');
      assert TransitInv(bs, cfg.codec, s'.pool.workers, s'.buffer, s'.writer.orderId, s'.queue.orderId);
      assert WriterInv(cfg, s'.writer);
    }
  }

  /** Taking the next block out of the buffer keeps the transit invariant,
      and that block is the transformation of block `w`. */
  lemma RemoveNext(bs: seq<Block>, codec: Codec, ws: seq<Worker>, buffer: seq<Block>, w: ushort, q: nat,
                   b: Block, rest: seq<Block>)
    requires TransitInv(bs, codec, ws, buffer, w, q)
    requires GetBlock(buffer, w) == Some((b, rest))
    ensures w < q && b.number == w
    ensures codec(bs[w].bytes) == Some(b.bytes)
    ensures TransitInv(bs, codec, ws, rest, w + 1, q)
  {
    var i := FindBlock(buffer, w, 0).value;
    NumbersOfRemove(buffer, i);
    RemoveFromRange(InFlight(ws), NumbersOf(buffer), NumbersOf(rest), w, q);
    RemovedAreTransformed(bs, codec, buffer, i);
  }

  lemma RemovedAreTransformed(bs: seq<Block>, codec: Codec, buffer: seq<Block>, i: nat)
    requires BufferedAreTransformed(bs, codec, buffer) && i < |buffer|
    ensures BufferedAreTransformed(bs, codec, buffer[..i] + buffer[i + 1..])
  {
    var rest := buffer[..i] + buffer[i + 1..];
    assert forall j | 0 <= j < |rest| :: rest[j] == if j < i then buffer[j] else buffer[j + 1];
  }

  /** Taking `w` out of a multiset that completes `h` to `[w, q)` leaves one
      that completes it to `[w + 1, q)`. */
  lemma RemoveFromRange(h: multiset<int>, nb: multiset<int>, nr: multiset<int>, w: int, q: int)
    requires h + nb == Range(w, q) && nb == nr + multiset{w}
    ensures w < q && h + nr == Range(w + 1, q)
  {
    var m := multiset{w};
    assert w in Range(w, q) by {
      assert (h + nb)[w] >= nb[w] >= 1;
    }
    RangeMembers(w, q, w);
    assert Range(w, q) == m + Range(w + 1, q);
    forall v ensures (h + nr)[v] == Range(w + 1, q)[v] {
      assert (h + (nr + m))[v] == (m + Range(w + 1, q))[v];
    }
  }

  lemma {:induction false} NumbersOfRemove(buffer: seq<Block>, i: nat)
    requires i < |buffer|
    ensures NumbersOf(buffer) == NumbersOf(buffer[..i] + buffer[i + 1..]) + multiset{buffer[i].number as int}
  {
    var rest := buffer[..i] + buffer[i + 1..];
    var m := multiset{buffer[i].number as int};
    if i == 0 {
      assert rest == buffer[1..];
      UnionSwap(m, multiset{}, NumbersOf(rest));
    } else {
      var tl := buffer[1..];
      NumbersOfRemove(tl, i - 1);
      assert tl[i - 1] == buffer[i];
      assert rest[0] == buffer[0] && rest[1..] == tl[..i - 1] + tl[i..];
      UnionShift(multiset{buffer[0].number as int}, NumbersOf(tl), NumbersOf(rest[1..]), multiset{}, m);
    }
  }

  /** Appending block `w`'s frame extends the written prefix by one. */
  lemma AppendNext(cfg: Config, writer: WriterState, b: Block, writer': WriterState)
    requires WellFormed(cfg) && WriterInv(cfg, writer)
    requires writer.orderId < |AllBlocks(cfg)|
    requires cfg.codec(AllBlocks(cfg)[writer.orderId].bytes) == Some(b.bytes)
    requires writer' == WriteBlockAsWritten(writer, Compressing(cfg), b)
    ensures WriterInv(cfg, writer')
  {
    var w := writer.orderId;
    var ps := Expected(cfg);
    assert writer'.orderId == w + 1;
    assert ps[w] == b.bytes;
    assert Succeeds(cfg, w);
    FramesExtend(ps, w, Prefix(cfg), Compressing(cfg));
  }

  /** One more frame extends the framed prefix of `ps` by one element. */
  lemma FramesExtend(ps: seq<seq<byte>>, w: nat, prefix: seq<byte>, compress: bool)
    requires w < |ps|
    ensures (prefix + Frames(ps[..w], compress)) + Frame(ps[w], compress)
            == prefix + Frames(ps[..w + 1], compress)
  {
    assert ps[..w + 1] == ps[..w] + [ps[w]];
    FramesAppend(ps[..w], ps[w], compress);
  }

  /** Every step of every thread keeps the invariant. */
  lemma StepKeepsInv(cfg: Config, s: State, a: Action)
    requires Inv(cfg, s)
    ensures Inv(cfg, Step(cfg, s, a))
  {
    if !s.cancelled {
      match a
      case Read(ram) => ReadKeepsInv(cfg, s, ram);
      case Manage(cpu) => ManageKeepsInv(cfg, s, cpu);
      case Work(i) => WorkKeepsInv(cfg, s, i);
      case WriteNext => WriteKeepsInv(cfg, s);
    }
  }

  /** The start state satisfies the invariant. */
  lemma InitEstablishesInv(cfg: Config)
    requires WellFormed(cfg)
    ensures Inv(cfg, Init(cfg))
  {
    var s := Init(cfg);
    StartEstablishes(WorkQueue([], 0), cfg.maxThreads);
    assert AllBlocks(cfg)[0..] == AllBlocks(cfg);
    assert Expected(cfg)[..0] == [];
  }

  /** The invariant holds after any interleaving of steps. */
  lemma {:induction false} RunKeepsInv(cfg: Config, s: State, actions: seq<Action>)
    requires Inv(cfg, s)
    ensures Inv(cfg, Run(cfg, s, actions))
    decreases |actions|
  {
    if |actions| > 0 {
      StepKeepsInv(cfg, s, actions[0]);
      RunKeepsInv(cfg, Step(cfg, s, actions[0]), actions[1..]);
    }
  }

  // ---- what the invariant gives ----

  /** The codec accepted every block of the run. */
  predicate AllSucceed(cfg: Config) {
    forall i | 0 <= i < |AllBlocks(cfg)| :: Succeeds(cfg, i)
  }

  /** A run whose writer has counted every block has written the complete
      destination: the prefix, then every transformed block in order. */
  lemma CompletedRunWritesAll(cfg: Config, s: State)
    requires Inv(cfg, s) && s.writer.orderId == cfg.blocksCount
    ensures AllSucceed(cfg) && s.writer.out == FinalOutput(cfg)
  {
    assert Expected(cfg)[..s.writer.orderId] == Expected(cfg);
  }

  lemma {:induction false} FramesConcat(a: seq<seq<byte>>, b: seq<seq<byte>>, compress: bool)
    ensures Frames(a + b, compress) == Frames(a, compress) + Frames(b, compress)
  {
    if |a| == 0 {
      assert a + b == b;
    } else {
      assert (a + b)[1..] == a[1..] + b;
      FramesConcat(a[1..], b, compress);
    }
  }

  /** At every point of every interleaving the destination holds a prefix of
      the complete destination: blocks are never written out of order, twice,
      or in part. */
  lemma WrittenIsPrefix(cfg: Config, s: State)
    requires Inv(cfg, s)
    ensures s.writer.out <= FinalOutput(cfg)
  {
    var ps := Expected(cfg);
    var w := s.writer.orderId;
    assert ps == ps[..w] + ps[w..];
    FramesConcat(ps[..w], ps[w..], Compressing(cfg));
    AppendAssoc(Prefix(cfg), Frames(ps[..w], Compressing(cfg)), Frames(ps[w..], Compressing(cfg)));
  }

  /** When compressing, the header with the block count comes first. */
  lemma HeaderFirst(cfg: Config, s: State)
    requires Inv(cfg, s) && Compressing(cfg)
    ensures |s.writer.out| >= HEADER_LENGTH && s.writer.out[..HEADER_LENGTH] == Header(cfg.blocksCount)
  {
  }

  /** After a cancellation nothing moves any more. */
  lemma {:induction false} CancelledIsFinal(cfg: Config, s: State, actions: seq<Action>)
    requires s.cancelled
    ensures Run(cfg, s, actions) == s
    decreases |actions|
  {
    if |actions| > 0 {
      assert Step(cfg, s, actions[0]) == s;
      CancelledIsFinal(cfg, s, actions[1..]);
    }
  }

  /** No step takes anything back: the destination only grows and the
      reader's, queue's and writer's counters never decrease (none of them
      wraps, since none passes the block count). */
  lemma StepOnlyAdvances(cfg: Config, s: State, a: Action)
    requires Inv(cfg, s)
    ensures var s' := Step(cfg, s, a);
            && s.writer.out <= s'.writer.out
            && s.reader.orderId <= s'.reader.orderId
            && s.queue.orderId <= s'.queue.orderId
            && s.writer.orderId <= s'.writer.orderId
  {
    if !s.cancelled {
      match a
      case Read(ram) => ReadAdvances(cfg, s, ram);
      case Manage(cpu) =>
      case Work(i) => WorkAdvances(cfg, s, i);
      case WriteNext => WriteAdvances(cfg, s);
    }
  }

  lemma ReadAdvances(cfg: Config, s: State, ram: int)
    requires Inv(cfg, s) && !s.cancelled
    ensures var s' := Step(cfg, s, Read(ram));
            s'.writer == s.writer && s'.queue.orderId == s.queue.orderId
            && s.reader.orderId <= s'.reader.orderId
  {
    var (rs, b) := ReadStep(s.reader, cfg.data, cfg.compressBlockSize, ram, |s.queue.items|);
    if b.Some? {
      assert |AllBlocks(cfg)[s.reader.orderId..]| > 0;
    }
  }

  /** A worker step moves only the queue's counter, and that one forward:
      it is below the block count whenever a block is taken. */
  lemma WorkAdvances(cfg: Config, s: State, i: nat)
    requires !s.cancelled && s.queue.orderId <= cfg.blocksCount
    ensures var s' := Step(cfg, s, Work(i));
            s'.writer == s.writer && s'.reader == s.reader
            && s.queue.orderId <= s'.queue.orderId
  {
    if i < |s.pool.workers| {
      var w := s.pool.workers[i];
      var o := Compresser.Step(w, s.queue, s.buffer, cfg.blocksCount, cfg.codec);
      if !w.done && w.inFlight.None? && LoopContinues(w, s.queue.orderId, cfg.blocksCount) && |s.queue.items| > 0 {
        assert o.queue == Dequeue(s.queue).1;
      } else {
        assert o.queue == s.queue;
      }
    }
  }

  /** A writer step only appends, and its counter, below the block count
      whenever a block is written, moves forward. */
  lemma WriteAdvances(cfg: Config, s: State)
    requires !s.cancelled && s.writer.orderId <= cfg.blocksCount
    ensures var s' := Step(cfg, s, WriteNext);
            s'.reader == s.reader && s'.queue == s.queue
            && s.writer.out <= s'.writer.out && s.writer.orderId <= s'.writer.orderId
  {
    var o := WriterStep(s.writer, s.buffer, cfg.blocksCount, Compressing(cfg));
    if o.writer != s.writer {
      assert o.writer.out == s.writer.out + Frame(GetBlock(s.buffer, s.writer.orderId).value.0.bytes, Compressing(cfg));
    }
  }

  lemma {:induction false} RangeAtMostOnce(lo: int, hi: int, x: int)
    ensures Range(lo, hi)[x] <= 1
    decreases hi - lo
  {
    if lo < hi {
      RangeMembers(lo + 1, hi, x);
      RangeAtMostOnce(lo + 1, hi, x);
    }
  }

  lemma {:induction false} InFlightMember(ws: seq<Worker>, j: nat)
    requires j < |ws| && ws[j].inFlight.Some?
    ensures ws[j].inFlight.value.number as int in InFlight(ws)
  {
    if j > 0 {
      InFlightMember(ws[1..], j - 1);
    }
  }

  /** No block is held by two workers at once: the queue hands each block
      out exactly once. */
  lemma NoBlockHeldTwice(cfg: Config, s: State, i: nat, j: nat)
    requires Inv(cfg, s)
    requires i < j < |s.pool.workers|
    requires s.pool.workers[i].inFlight.Some? && s.pool.workers[j].inFlight.Some?
    ensures s.pool.workers[i].inFlight.value.number != s.pool.workers[j].inFlight.value.number
  {
    var ws := s.pool.workers;
    var n := ws[i].inFlight.value.number as int;
    var ws' := ws[i := ws[i].(inFlight := None)];
    InFlightUpdate(ws, i, ws'[i]);
    InFlightMember(ws', j);
    RangeAtMostOnce(s.writer.orderId, s.queue.orderId, n);
    var h, h' := InFlight(ws), InFlight(ws');
    assert (h' + multiset{n})[n] == (h + multiset{})[n];
    assert (h + NumbersOf(s.buffer))[n] <= 1;
    assert n !in h';
  }

  // ---- the archive round trip ----

  /** The codec pair the round trip needs: every chunk of at most 2^20 bytes
      compresses to fewer than 2^24 bytes and decompresses back to itself. */
  ghost predicate Inverse(enc: Codec, dec: Codec) {
    forall c: seq<byte> | |c| <= MEGA ::
      enc(c).Some? && |enc(c).value| < SIZE_LIMIT && dec(enc(c).value) == Some(c)
  }

  /** Compressing: the input cut into blocks of at most 2^20 bytes, each
      compressed, framed behind the header. */
  lemma CompressSide(data: seq<byte>, enc: Codec, dec: Codec, maxThreads: nat)
    requires CeilDiv(|data|, MEGA) <= 0xFFFF && maxThreads >= 1 && Inverse(enc, dec)
    ensures var c := CompressConfig(data, enc, maxThreads);
            && WellFormed(c) && AllSucceed(c)
            && |Expected(c)| == c.blocksCount
            && (forall k | 0 <= k < c.blocksCount ::
                  |Expected(c)[k]| < SIZE_LIMIT && dec(Expected(c)[k]) == Some(AllBlocks(c)[k].bytes))
            && Concat(Payloads(AllBlocks(c))) == data
  {
    var c := CompressConfig(data, enc, maxThreads);
    var bs := AllBlocks(c);
    assert bs == ReadFrom(data, 0, MEGA, 0);
    ChunkCount(data, 0, MEGA, 0);
    assert |bs| == c.blocksCount;
    ChunksPartition(data, 0, MEGA, 0);
    assert data[0..] == data;
    ChunksFit(data);
    var ps := Expected(c);
    forall k | 0 <= k < |bs|
      ensures Succeeds(c, k) && |ps[k]| < SIZE_LIMIT && dec(ps[k]) == Some(bs[k].bytes)
    {
      EncodeChunk(enc, dec, bs[k].bytes);
    }
  }

  /** No chunk of a compress run is longer than 2^20 bytes. */
  lemma ChunksFit(data: seq<byte>)
    ensures forall k | 0 <= k < |ReadFrom(data, 0, MEGA, 0)| :: |ReadFrom(data, 0, MEGA, 0)[k].bytes| <= MEGA
  {
    var bs := ReadFrom(data, 0, MEGA, 0);
    ChunksPartition(data, 0, MEGA, 0);
    forall k | 0 <= k < |bs| ensures |bs[k].bytes| <= MEGA {
      if k < |bs| - 1 {
        assert |bs[k].bytes| == MEGA;
      }
    }
  }

  lemma EncodeChunk(enc: Codec, dec: Codec, chunk: seq<byte>)
    requires Inverse(enc, dec) && |chunk| <= MEGA
    ensures enc(chunk).Some? && |ValueOr(enc(chunk), [])| < SIZE_LIMIT && dec(ValueOr(enc(chunk), [])) == Some(chunk)
  {
  }

  /** Decompressing an archive made of a header and framed blocks yields the
      concatenation of the decoded blocks. */
  lemma DecompressSide(n: ushort, ps: seq<seq<byte>>, originals: seq<seq<byte>>, dec: Codec, maxThreads: nat)
    requires |ps| == n == |originals| && maxThreads >= 1
    requires forall k | 0 <= k < n :: |ps[k]| < SIZE_LIMIT && dec(ps[k]) == Some(originals[k])
    ensures var d := DecompressConfig(Header(n) + Frames(ps, true), dec, maxThreads);
            WellFormed(d) && AllSucceed(d) && FinalOutput(d) == Concat(originals)
  {
    var archive := Header(n) + Frames(ps, true);
    HeaderRoundTrip(n, Frames(ps, true));
    var d := DecompressConfig(archive, dec, maxThreads);
    FramesParse(Header(n), ps, 0);
    var bs := AllBlocks(d);
    assert Payloads(bs) == ps;
    assert forall k | 0 <= k < |bs| :: bs[k].bytes == ps[k];
    assert Expected(d) == originals;
    UnframedIsConcat(originals);
  }

  /** Decompressing the archive that compressing writes gives back the
      input, for every input whose block count fits the header. */
  lemma ArchiveRoundTrip(data: seq<byte>, enc: Codec, dec: Codec, maxThreads: nat)
    requires CeilDiv(|data|, MEGA) <= 0xFFFF && maxThreads >= 1 && Inverse(enc, dec)
    ensures var c := CompressConfig(data, enc, maxThreads);
            && WellFormed(c) && AllSucceed(c)
            && var d := DecompressConfig(FinalOutput(c), dec, maxThreads);
            && WellFormed(d) && AllSucceed(d) && FinalOutput(d) == data
  {
    var c := CompressConfig(data, enc, maxThreads);
    CompressSide(data, enc, dec, maxThreads);
    var originals := Payloads(AllBlocks(c));
    DecompressSide(c.blocksCount, Expected(c), originals, dec, maxThreads);
  }

  /** Compressing an empty input writes exactly the 6-byte header with a
      count of 0: the archive that `GZiper.EmptyArchiveRejectedAsWritten`
      shows the written decompression check refusing. */
  lemma EmptyInputArchive(enc: Codec, maxThreads: nat)
    ensures var c := CompressConfig([], enc, maxThreads);
            c.blocksCount == 0 && |AllBlocks(c)| == 0 && FinalOutput(c) == Header(0)
  {
    var c := CompressConfig([], enc, maxThreads);
    assert Frames(Expected(c), true) == [];
  }

  /** Any interleaving of the compress run that finishes, followed by any
      interleaving of the decompress run over its archive that finishes,
      gives back the original input. */
  lemma PipelineRoundTrip(data: seq<byte>, enc: Codec, dec: Codec, maxThreads: nat,
                          compressRun: seq<Action>, decompressRun: seq<Action>)
    requires CeilDiv(|data|, MEGA) <= 0xFFFF && maxThreads >= 1 && Inverse(enc, dec)
    ensures var c := CompressConfig(data, enc, maxThreads);
            var sc := Run(c, Init(c), compressRun);
            var d := DecompressConfig(sc.writer.out, dec, maxThreads);
            var sd := Run(d, Init(d), decompressRun);
            sc.writer.orderId == c.blocksCount && sd.writer.orderId == d.blocksCount ==> sd.writer.out == data
  {
    var c := CompressConfig(data, enc, maxThreads);
    var sc := Run(c, Init(c), compressRun);
    ArchiveRoundTrip(data, enc, dec, maxThreads);
    InitEstablishesInv(c);
    RunKeepsInv(c, Init(c), compressRun);
    if sc.writer.orderId == c.blocksCount {
      CompletedRunWritesAll(c, sc);
      var d := DecompressConfig(FinalOutput(c), dec, maxThreads);
      InitEstablishesInv(d);
      RunKeepsInv(d, Init(d), decompressRun);
      if Run(d, Init(d), decompressRun).writer.orderId == d.blocksCount {
        CompletedRunWritesAll(d, Run(d, Init(d), decompressRun));
      }
    }
  }
}

=== FILE: thread_manager.dfy ===
/** The pool manager of ThreadManager.cs: a stack of live workers resized one
    step per tick from queue depth and CPU load, then drained by
    `WaitThreads`. CPU load and the processor count are inputs. */
module ThreadManager {
  import opened Wrappers
  import opened Bytes
  import opened Compresser
  import opened WorkQueue

  /** No worker is added while the CPU reading is at or above this. */
  const MAX_CPU_VALUE: int := 60
  /** A worker is added only when the backlog exceeds this many blocks per worker. */
  const BLOCKS_FOR_THREAD: nat := 10

  /** The scaling loop of `Start`, the `WaitThreads` loop, and after it. */
  datatype Phase = Scaling | Waiting | Finished

  /** `workers` holds every worker ever created, so a worker removed from the
      pool keeps its place and can finish its block; `stack` is the
      `Archivers` stack of indices into it, top last. `maxThreads` is the
      processor count read when `Start` began. */
  datatype Pool = Pool(workers: seq<Worker>, stack: seq<nat>, phase: Phase, maxThreads: nat)

  predicate StackValid(p: Pool) {
    forall j | 0 <= j < |p.stack| :: p.stack[j] < |p.workers|
  }

  /** The scale-up condition. */
  predicate ShouldAdd(live: nat, queueDepth: nat, cpu: int, maxThreads: nat) {
    && live * BLOCKS_FOR_THREAD < queueDepth
    && live < maxThreads
    && cpu < MAX_CPU_VALUE
  }

  /** The number of live workers after one tick of the scaling loop: one more
      when the scale-up condition holds, one fewer when it does not and at
      least two are live, otherwise unchanged. */
  function Resize(live: nat, queueDepth: nat, cpu: int, maxThreads: nat): (live': nat)
    ensures live' == live + 1 <==> ShouldAdd(live, queueDepth, cpu, maxThreads)
    ensures live' + 1 == live <==> !ShouldAdd(live, queueDepth, cpu, maxThreads) && live >= 2
    ensures live' == live <==> !ShouldAdd(live, queueDepth, cpu, maxThreads) && live < 2
  {
    if ShouldAdd(live, queueDepth, cpu, maxThreads) then live + 1
    else if live >= 2 then live - 1
    else live
  }

  /** Whatever the backlog and the CPU readings, a pool that holds between 1
      and `maxThreads` workers still does after a resize. */
  lemma ResizeStaysInBounds(live: nat, queueDepth: nat, cpu: int, maxThreads: nat)
    requires 1 <= live <= maxThreads
    ensures 1 <= Resize(live, queueDepth, cpu, maxThreads) <= maxThreads
  {
  }

  /** `AddArchiver`: a fresh worker is pushed; existing ones are untouched. */
  function AddArchiver(p: Pool): (p': Pool)
    ensures p'.workers == p.workers + [NewWorker()]
    ensures p'.stack == p.stack + [|p.workers|]
    ensures p'.phase == p.phase && p'.maxThreads == p.maxThreads
  {
    p.(workers := p.workers + [NewWorker()], stack := p.stack + [|p.workers|])
  }

  /** `RemoveArchiver`: with fewer than two live workers nothing happens;
      otherwise the top worker is popped and asked to stop, not killed. */
  function RemoveArchiver(p: Pool): (p': Pool)
    requires StackValid(p)
    ensures |p.stack| < 2 ==> p' == p
    ensures |p.stack| >= 2 ==>
              var top := p.stack[|p.stack| - 1];
              && p'.stack == p.stack[..|p.stack| - 1]
              && p'.workers == p.workers[top := Interrupt(p.workers[top])]
              && p'.phase == p.phase && p'.maxThreads == p.maxThreads
  {
    if |p.stack| < 2 then p
    else
      var top := p.stack[|p.stack| - 1];
      p.(stack := p.stack[..|p.stack| - 1], workers := p.workers[top := Interrupt(p.workers[top])])
  }

  /** `Start`: the taken-blocks checkpoint is reset and the pool begins with
      exactly one fresh worker. */
  function Start(q: WorkQueue, maxThreads: nat): (r: (Pool, WorkQueue))
    ensures r.1.orderId == 0 && r.1.items == q.items
    ensures |r.0.stack| == 1 && r.0.phase == Scaling && r.0.maxThreads == maxThreads
    ensures r.0.stack == [0] && r.0.workers == [NewWorker()]
  {
    (AddArchiver(Pool([], [], Scaling, maxThreads)), Reset(q))
  }

  /** One pass of `WaitThreads`: the top worker is popped only once its Done
      flag is set; an empty stack ends the wait. */
  function WaitStep(p: Pool): (p': Pool)
    requires StackValid(p)
    ensures |p.stack| == 0 ==> p' == p.(phase := Finished)
    ensures |p.stack| > 0 && p.workers[p.stack[|p.stack| - 1]].done ==>
              p' == p.(stack := p.stack[..|p.stack| - 1])
    ensures |p.stack| > 0 && !p.workers[p.stack[|p.stack| - 1]].done ==> p' == p
  {
    if |p.stack| == 0 then p.(phase := Finished)
    else if p.workers[p.stack[|p.stack| - 1]].done then p.(stack := p.stack[..|p.stack| - 1])
    else p
  }

  /** One tick of the manager thread: the scaling loop leaves for
      `WaitThreads` exactly when the checkpoint equals the block count, and
      otherwise adds or removes one worker. */
  function Tick(p: Pool, q: WorkQueue, blocksCount: ushort, cpu: int): (p': Pool)
    requires StackValid(p)
    ensures p.phase == Scaling && q.orderId == blocksCount ==> p' == p.(phase := Waiting)
    ensures p.phase == Scaling && q.orderId != blocksCount ==>
              && p'.phase == Scaling
              && |p'.stack| == Resize(|p.stack|, |q.items|, cpu, p.maxThreads)
              && |p.workers| <= |p'.workers|
              && p'.maxThreads == p.maxThreads
    // growing pushes one fresh worker; shrinking is `RemoveArchiver`
    ensures p.phase == Scaling && q.orderId != blocksCount && ShouldAdd(|p.stack|, |q.items|, cpu, p.maxThreads) ==>
              && p'.stack == p.stack + [|p.workers|]
              && p'.workers == p.workers + [NewWorker()]
    ensures p.phase == Scaling && q.orderId != blocksCount && !ShouldAdd(|p.stack|, |q.items|, cpu, p.maxThreads) ==>
              p' == RemoveArchiver(p)
    ensures p.phase == Waiting ==> p' == WaitStep(p)
    ensures p.phase == Finished ==> p' == p
    // the manager never touches a held block; new workers hold none
    ensures |p.workers| <= |p'.workers|
    ensures forall i | 0 <= i < |p'.workers| ::
              p'.workers[i].inFlight == (if i < |p.workers| then p.workers[i].inFlight else None)
  {
    match p.phase
    case Scaling =>
      if q.orderId == blocksCount then p.(phase := Waiting)
      else if ShouldAdd(|p.stack|, |q.items|, cpu, p.maxThreads) then AddArchiver(p)
      else RemoveArchiver(p)
    case Waiting => WaitStep(p)
    case Finished => p
  }

  /** What the manager keeps true: the stack names distinct, existing,
      uninterrupted workers; while scaling it holds between 1 and the
      processor count of them; once finished, none. */
  predicate PoolInv(p: Pool) {
    && StackValid(p)
    && (forall i, j | 0 <= i < j < |p.stack| :: p.stack[i] != p.stack[j])
    && (forall j | 0 <= j < |p.stack| :: !p.workers[p.stack[j]].interrupted)
    && (p.phase == Scaling ==> 1 <= |p.stack| <= p.maxThreads)
    && (p.phase == Finished ==> |p.stack| == 0)
  }

  /** `Start` establishes the invariant on any host with at least one processor. */
  lemma StartEstablishes(q: WorkQueue, maxThreads: nat)
    requires maxThreads >= 1
    ensures PoolInv(Start(q, maxThreads).0)
  {
  }

  /** Every tick keeps the invariant: the pool never drops below one worker
      nor exceeds the processor count while scaling, whatever the load. */
  lemma TickKeepsInv(p: Pool, q: WorkQueue, blocksCount: ushort, cpu: int)
    requires PoolInv(p)
    ensures PoolInv(Tick(p, q, blocksCount, cpu))
  {
    var p' := Tick(p, q, blocksCount, cpu);
    if p.phase == Scaling && q.orderId != blocksCount {
      ResizeStaysInBounds(|p.stack|, |q.items|, cpu, p.maxThreads);
      if !ShouldAdd(|p.stack|, |q.items|, cpu, p.maxThreads) && |p.stack| >= 2 {
        var top := p.stack[|p.stack| - 1];
        assert forall j | 0 <= j < |p'.stack| :: p'.stack[j] == p.stack[j] && p.stack[j] != top;
      }
    }
  }

  /** A worker's own step leaves its interrupt flag alone, so it keeps the
      invariant. */
  lemma WorkerUpdateKeepsInv(p: Pool, i: nat, w: Worker)
    requires PoolInv(p) && i < |p.workers| && w.interrupted == p.workers[i].interrupted
    ensures PoolInv(p.(workers := p.workers[i := w]))
  {
  }
}

=== FILE: work_queue.dfy ===
/** The shared work queue of ThreadManager.cs: a FIFO of blocks waiting for a
    worker, together with `OrderId`, the count of blocks taken from it. */
module WorkQueue {
  import opened Wrappers
  import opened Bytes
  import opened Blocks

  datatype WorkQueue = WorkQueue(items: seq<Block>, orderId: ushort)

  /** `Start` resets the taken-blocks checkpoint; the queue keeps what the
      reader has already put in it. */
  function Reset(q: WorkQueue): (q': WorkQueue)
    ensures q'.items == q.items && q'.orderId == 0
  {
    q.(orderId := 0)
  }

  /** `EnqueueBlock`: the block goes to the tail; nothing else changes. */
  function Enqueue(q: WorkQueue, b: Block): (q': WorkQueue)
    ensures |q'.items| == |q.items| + 1
    ensures q'.items[..|q.items|] == q.items && q'.items[|q.items|] == b
    ensures q'.orderId == q.orderId
  {
    q.(items := q.items + [b])
  }

  /** `DequeueBlock`: nothing from an empty queue; otherwise the head, and the
      checkpoint advances by one. */
  function Dequeue(q: WorkQueue): (r: (Option<Block>, WorkQueue))
    ensures |q.items| == 0 ==> r.0 == None && r.1 == q
    ensures |q.items| > 0 ==>
              && r.0 == Some(q.items[0])
              && r.1.items == q.items[1..]
              && r.1.orderId == Inc16(q.orderId)
  {
    if |q.items| == 0 then (None, q)
    else (Some(q.items[0]), WorkQueue(q.items[1..], Inc16(q.orderId)))
  }

  /** The blocks `n` successive dequeues return, and the queue after them. */
  function DequeueMany(q: WorkQueue, n: nat): (Option<seq<Block>>, WorkQueue)
    decreases n
  {
    if n == 0 then (Some([]), q)
    else
      match Dequeue(q)
      case (None, q') => (None, q')
      case (Some(b), q') =>
        var (rest, q'') := DequeueMany(q', n - 1);
        (if rest.Some? then Some([b] + rest.value) else None, q'')
  }

  /** First in, first out: after enqueueing `bs`, dequeueing everything in
      the queue returns the earlier contents followed by `bs` in the order
      they were enqueued, and leaves the queue empty. */
  lemma {:induction false} FifoOrder(q: WorkQueue, bs: seq<Block>)
    ensures var q' := EnqueueAll(q, bs);
            var (out, q'') := DequeueMany(q', |q.items| + |bs|);
            out == Some(q.items + bs) && q''.items == []
    decreases |bs|
  {
    EnqueueAllItems(q, bs);
    DrainAll(EnqueueAll(q, bs));
  }

  function EnqueueAll(q: WorkQueue, bs: seq<Block>): WorkQueue
    decreases |bs|
  {
    if |bs| == 0 then q else EnqueueAll(Enqueue(q, bs[0]), bs[1..])
  }

  lemma {:induction false} EnqueueAllItems(q: WorkQueue, bs: seq<Block>)
    ensures EnqueueAll(q, bs).items == q.items + bs
    decreases |bs|
  {
    if |bs| > 0 {
      EnqueueAllItems(Enqueue(q, bs[0]), bs[1..]);
      assert q.items + [bs[0]] + bs[1..] == q.items + bs;
    }
  }

  lemma {:induction false} DrainAll(q: WorkQueue)
    ensures var (out, q') := DequeueMany(q, |q.items|);
            out == Some(q.items) && q'.items == []
    decreases |q.items|
  {
    if |q.items| > 0 {
      var (_, q') := Dequeue(q);
      DrainAll(q');
      assert [q.items[0]] + q.items[1..] == q.items;
    }
  }
}

=== FILE: wrappers.dfy ===
/** Optional values used in place of the source's nulls, and small helpers. */
module Wrappers {

  /** A nullable reference such as `BlockOfFile?`: `None` is `null`. */
  datatype Option<+T> = None | Some(value: T)

  /** The held value, or `default` in place of `null`. */
  function ValueOr<T>(o: Option<T>, default: T): T {
    if o.Some? then o.value else default
  }

  function Min(a: int, b: int): int {
    if a <= b then a else b
  }
}
